=== FILE: README.md ===
# Whisky posting bot: ledger, gates and job protocols

The repository is a set of scheduled Node.js jobs. The daily, pairing,
legend, news and note jobs post whisky content to X, and the note job also
publishes articles on note. Every job keeps a record of what it posted as
GitHub issues labelled `posted`. Those issues form an append-only ledger,
and each job reads it back to avoid posting twice:

- the daily, pairing and legend jobs skip a run once that UTC day
  already has a record;
- the news job skips an item whose title already appears in a recorded body;
- the note job picks an article theme that has not been recorded yet,
  while one remains.

This project models that core as pure Dafny functions over an immutable
ledger (`seq<Issue>`, oldest first), with each job as one step function.
A step takes the ledger, the current instant and the outcomes of the
external calls it makes (Claude, X, note, GitHub), and returns:

- the new ledger;
- the calls it made, in order;
- its exit: completed, skipped (exit 0 early) or failed (exit 1).

Text is a sequence of UTF-16 code units, because JavaScript's `.length`
and `.substring` count those.

Modules, in dependency order:

- `Wrappers`: `Option`, `Result`.
- `Seqs`: `flatMap`, with the order it keeps, and subsequences.
- `Texts`: UTF-16 code units, substring search (`.includes`),
  `.substring(0, n)`, line terminators as `.` sees them, and the
  `toISOString().split('T')[0]` date prefix.
- `Patterns`: the three regular expressions the jobs use. Each is a search
  for its leftmost match, with `+?` as the shortest and `+` as the longest
  capture:
  - the fenced-JSON extractor;
  - the greedy note-theme extractor;
  - the lazy bracketed-title extractor of `getPostedTitles`.
- `Ledger`: `recordPost`, `getPostedIssues`, `isPostedToday`,
  `isContentPosted`, `getPostedTitles`.
- `XClient`: `refreshAccessToken` and `postToX` against a provider given as
  a parameter.
- `Runs`: the calls a run makes, exits, `Math.floor(Math.random() * n)`,
  and the post-then-record tail every job ends with.
- `Seasons`, `Numerals`: the month-to-season partition, and integers
  rendered in a template literal.
- `DayGated`: the protocol the daily and pairing jobs share. `DailyPost`
  and `PairingPost` instantiate it.
- `LegendPost`, `NewsPost`, `NotePost`: the other three jobs.

Assumptions the model makes about the outside world:

- The issue list comes back newest first. This is GitHub's default sort,
  which `listForRepo` does not override, and it caps the list at one page
  of 100.
- A new issue's `created_at` is the instant the job read as `now`.
- `Math.random()` is a real `draw` with `0 <= draw < 1`.
- `JSON.parse` is a function parameter that may fail.

No job stores the rotated refresh token (`updateGitHubSecret` in
scripts/lib/secret-updater.js has no caller), and no call is retried.
`XClient.RotatedTokenIsDiscarded` states the consequence: against a
provider that rotates refresh tokens, the run after a successful one is
refused.

## Model

| member | source | states |
|---|---|---|
| Texts.EncodeLength | scripts/lib/x-client.js:37 | `.length` of a string is its character count plus one for every character outside the Basic Multilingual Plane |
| Texts.DatePart | scripts/lib/github-client.js:65-68 | `split('T')[0]` is the longest prefix without a `T`, followed by `T` when it is not the whole text |
| Texts.IsoDatePart | scripts/lib/github-client.js:65 | the date prefix of an ISO timestamp is its first ten units and has the `YYYY-MM-DD` shape |
| Texts.Includes | scripts/lib/github-client.js:83 | `.includes(p)` holds exactly when `p` occurs at some position |
| Texts.Take | scripts/news-post.js:124 | `.substring(0, n)` is the prefix of length `min(n, length)` |
| Patterns.FenceFrom | scripts/lib/note-client.js:117 | the search for the fenced block finds the leftmost opening fence, and after it the first closing fence that leaves a non-empty payload; it reports no match only when none exists |
| Patterns.ExtractJson | scripts/lib/note-client.js:117-120 | the extractor matches exactly when some fenced block exists; the payload is non-empty, sits between the fences, and contains no closing fence after its first unit |
| Patterns.NoteThemeFrom | scripts/note-post.js:28 | the greedy search takes the leftmost `[Note] ` and the last ` -` on the same line that leaves a non-empty capture |
| Patterns.NoteTheme | scripts/note-post.js:28-29 | the note-theme regex matches exactly when some match exists, and returns the capture of the greedy match: the leftmost `[Note] ` and, on it, the last ` -` the line allows |
| Patterns.GreedyNoteThemeUnique | scripts/note-post.js:28 | at most one match is the greedy one, so the capture `NoteTheme` returns is determined |
| Patterns.TitleFrom | scripts/lib/github-client.js:97 | the lazy search takes the leftmost `[`, the first `] ` after a non-empty tag, and the first ` -` after a non-empty capture, all on one line |
| Patterns.BracketTitle | scripts/lib/github-client.js:97-98 | the title regex matches exactly when some match exists, and returns the capture of the lazy match: the leftmost `[`, the shortest tag, then the shortest capture; the capture is non-empty, one line, and part of the title |
| Patterns.LazyTitleUnique | scripts/lib/github-client.js:97 | at most one match is the lazy one, so the capture `BracketTitle` returns is determined |
| Patterns.NoteThemeOfRecordTitle | scripts/note-post.js:28 | on `[Note] T - YYYY-MM-DD` the greedy capture is exactly `T`, even when `T` contains ` - ` |
| Patterns.BracketTitleOfRecordTitle | scripts/lib/github-client.js:97 | on `[K] N -…`, with no `] ` in `K` and no ` -` in `N`, the lazy capture is exactly `N` |
| Ledger.StoredBody | scripts/lib/github-client.js:28 | the stored body starts with the content heading, holds the caller's body right after it, and contains the timestamp |
| Ledger.WithPosted | scripts/lib/github-client.js:29 | the stored or requested label set is `posted` together with the caller's labels |
| Ledger.RecordPost | scripts/lib/github-client.js:19-34 | recording appends one issue and keeps the rest; the new issue has the given title and the `posted` label plus the given ones; its body contains the caller's body and the time |
| Ledger.Matching | scripts/lib/github-client.js:46-52 | the filtered list holds exactly the issues carrying every requested label, newest first |
| Ledger.MatchingAppend | scripts/lib/github-client.js:46-52 | a newly recorded issue that matches comes first in the filtered list |
| Ledger.GetPostedIssues | scripts/lib/github-client.js:41-55 | the page holds only issues with `posted` and every requested label; it is the first `min(100, n)` of the `n` matches, with the newest first |
| Ledger.PageIsCompleteBelowCap | scripts/lib/github-client.js:46-52 | with at most 100 matches, every matching issue is on the page |
| Ledger.EmptyLedgerGatesOpen | scripts/lib/github-client.js:62-85 | on an empty ledger neither `isPostedToday` nor `isContentPosted` holds |
| Ledger.PostedTodayMeans | scripts/lib/github-client.js:62-71 | `isPostedToday` holds only if some recorded issue with the labels was created on the same UTC day; with at most 100 such issues, it holds exactly then |
| Ledger.ContentPostedMeans | scripts/lib/github-client.js:79-85 | `isContentPosted` holds only if some recorded issue with the labels has the text in its title or body; with at most 100 such issues, it holds exactly then |
| Ledger.RecordThenPostedToday | scripts/lib/github-client.js:62-71 | after recording with labels `L`, `isPostedToday` on any subset of `L` holds for the rest of that UTC day |
| Ledger.PageAfterAppend | scripts/lib/github-client.js:46-52 | appending an issue can only push old issues off the page; it never adds an older one |
| Ledger.RecordOnlyClosesItsOwnDay | scripts/lib/github-client.js:65-70 | a record closes only its own day's gate: on any other day the gate is closed afterwards only if it was before |
| Ledger.RecordThenContentPosted | scripts/lib/github-client.js:79-85 | after recording, `isContentPosted` holds for any fragment of the recorded title or body |
| Ledger.TitleOf | scripts/lib/github-client.js:95-98 | the extracted title is the whole title when the regex fails, and otherwise the capture of the leftmost lazy match, a non-empty one-line part of the title |
| Ledger.GetPostedTitles | scripts/lib/github-client.js:92-100 | one title per issue on the page, in page order, each extracted by `TitleOf` |
| XClient.RefreshAccessToken | scripts/lib/x-client.js:18-25 | the exchange always presents the environment's refresh token and fails exactly when the provider refuses it; on success it hands back exactly the provider's tokens, rotated refresh token included, and keeps nothing |
| XClient.PostToX | scripts/lib/x-client.js:32-47 | an empty text or one over 280 units is refused before any call; 280 is accepted; a valid text makes exactly one exchange then one tweet, and the result is the tweet's data |
| XClient.AstralCharactersCountTwice | scripts/lib/x-client.js:37-39 | 280 characters that include an emoji exceed the limit, and the error reports the code-unit length |
| XClient.RotatedTokenIsDiscarded | scripts/lib/x-client.js:18-25 | after a successful post against a rotating provider, the next post presents the spent token and fails without tweeting |
| Runs.Pick | scripts/legend-post.js:21 | `Math.floor(Math.random() * n)` is a valid index for `n > 0` |
| Runs.PostThenRecord | scripts/daily-post.js:66-74 | the record is written only after the tweet succeeds; the run completes exactly when both succeed; a tweet goes out exactly when the text is valid and the exchange succeeds |
| Seasons.Seasonal | scripts/daily-post.js:38-44 | the `if` chain picks spring for March–May, summer for June–August, autumn for September–November, winter otherwise |
| Seasons.SeasonalPartition | scripts/daily-post.js:40-43 | with four distinct lines, two months share a line exactly when they share a season |
| DayGated.Step | scripts/daily-post.js:46-82 | the gate runs first; if it finds a post today the run skips with no other call; the run completes exactly when the gate is open, Claude answers, the tweet and the record succeed; the record title is prefix plus date and the labels are `posted` and the kind |
| DayGated.RecordTitle | scripts/daily-post.js:71 | the record title is the job's prefix followed by the ten-unit `YYYY-MM-DD` date that opens the `now` timestamp, the UTC day |
| DayGated.RecordTitleNamesTheDay | scripts/daily-post.js:71 | two runs of one job get the same record title exactly when they fall on the same UTC day |
| DayGated.OncePerDay | scripts/daily-post.js:51-74 | after a completed run, every later run that UTC day skips at the gate |
| DayGated.RecordFailureAllowsRepost | scripts/daily-post.js:67-81 | if recording throws after the tweet, the ledger is unchanged and a same-day rerun tweets again |
| DailyPost.SeasonContext | scripts/daily-post.js:38-44 | each month maps to the daily season line of its quarter |
| DailyPost.SeasonPartition | scripts/daily-post.js:38-44 | the four daily season lines differ, so months share one exactly when they share a season |
| DailyPost.Step | scripts/daily-post.js:51-74 | a completed daily run records `[Daily] date` with labels `posted` and `daily`; a closed gate skips |
| PairingPost.SeasonContext | scripts/pairing-post.js:40-46 | each month maps to the pairing season line of its quarter, by the same partition as the daily job |
| PairingPost.SeasonPartition | scripts/pairing-post.js:40-46 | the four pairing season lines differ, so months share one exactly when they share a season |
| PairingPost.Step | scripts/pairing-post.js:53-76 | a completed pairing run records `[Pairing] date` with labels `posted` and `pairing`; a closed gate skips |
| Numerals.Decimal | scripts/legend-post.js:29 | an interpolated integer is its decimal digits, with a leading `-` exactly when it is negative (JavaScript's form for magnitudes below 10^21) |
| Numerals.DecimalRoundTrip | scripts/legend-post.js:29 | reading the rendered integer back gives the integer |
| LegendPost.Lifespan | scripts/legend-post.js:29 | the lifespan starts with the birth year, `年` and ` - `; it ends in the death year and `年` when the death year is truthy, and in `現在` otherwise, with nothing else between |
| LegendPost.LifespanDistinguishes | scripts/legend-post.js:29 | two legends get the same lifespan text exactly when they agree on birth year, on whether they have died, and on the death year if so |
| LegendPost.EndingDistinguishes | scripts/legend-post.js:29 | the text after ` - ` tells whether the legend has died and, if so, the death year |
| LegendPost.Choose | scripts/legend-post.js:20-21 | the chosen legend is an element of a non-empty list |
| LegendPost.RecordTitle | scripts/legend-post.js:72 | the record title is `[Legend] `, the legend's name, then ` - ` and the date |
| LegendPost.RecordBody | scripts/legend-post.js:73 | the record body is the name heading, the legend's name, a blank line, then the tweet text |
| LegendPost.Step | scripts/legend-post.js:8-83 | the gate runs before the legends are loaded; an empty or unreadable list fails; a completed run records `[Legend] name - date` with labels `posted`, `legend` and the legend's id, after the tweet |
| LegendPost.Load | scripts/legend-post.js:19-82 | past the gate the legends file is read first; an unreadable or empty list fails the run with the ledger unchanged and no tweet; a completed run records the legend drawn from the list |
| LegendPost.Speak | scripts/legend-post.js:58-82 | a failed Claude call fails the run before any tweet; otherwise the run completes exactly when the tweet and the record succeed, and the record carries the labels `posted`, `legend` and the id |
| LegendPost.OncePerDay | scripts/legend-post.js:13-75 | after a completed run, every later run that UTC day skips at the gate, whatever legend it would draw |
| LegendPost.TitleNamesTheLegend | scripts/legend-post.js:72 | for a one-line name without ` -`, `getPostedTitles` reads the legend's name back from the record title |
| NewsPost.FetchLatestNews | scripts/news-post.js:26-60 | fetching never fails the run: no answer, no fence or a failed parse gives `null`; otherwise the result is the parsed payload |
| NewsPost.NewsPostedIsContentPosted | scripts/news-post.js:65-69 | the body-only news check implies `isContentPosted` on the same labels |
| NewsPost.NewsPostedMeans | scripts/news-post.js:65-69 | the news check holds only if some recorded `news` issue has the title in its body; with at most 100 such issues, it holds exactly then |
| NewsPost.RecordTitle | scripts/news-post.js:124 | the record title starts with `[News] `, then holds the first 50 units of the news title, and ends with ` - ` and the date, with nothing else between; it holds the whole title when that is short |
| NewsPost.RecordBody | scripts/news-post.js:125 | the record body contains the full news title and the tweet text |
| NewsPost.Step | scripts/news-post.js:71-135 | no news means exit 0 with no gate, tweet or record; an item already in a recorded body skips; a completed run records after the tweet |
| NewsPost.Check | scripts/news-post.js:85-134 | an item whose title is already in a recorded body skips with exit 0 before Claude is asked again; otherwise the run completes exactly when the summary, the tweet and the record succeed |
| NewsPost.Comment | scripts/news-post.js:111-134 | a failed summary call fails the run before any tweet; otherwise the tweet comes before the record, and a completed run records under `news` |
| NewsPost.RecordThenNewsPosted | scripts/news-post.js:123-127 | once recorded, the news check holds for the full title, however long it is |
| NewsPost.SameNewsIsNotRepeated | scripts/news-post.js:86-90 | a later run handed an item with the same title skips without tweeting or recording |
| NotePost.ThemesAreOneLine | scripts/note-post.js:10-21 | every article theme is a non-empty single line |
| NotePost.PostedThemes | scripts/note-post.js:27-30 | the posted themes are the captures of the titles that match, and only those; titles that do not match are dropped |
| NotePost.PostedThemesInPageOrder | scripts/note-post.js:27-30 | the themes keep page order: those of two consecutive stretches of the page are the first's followed by the second's, and one issue gives its capture or nothing |
| NotePost.Unposted | scripts/note-post.js:33-35 | the unposted list holds exactly the themes not posted, in list order |
| NotePost.SelectTheme | scripts/note-post.js:23-44 | the chosen theme is always in the theme list, and unposted when any theme is unposted |
| NotePost.GenerateNoteArticle | scripts/lib/note-client.js:79-128 | the generator fails when Claude fails, when no fenced block exists, or when the payload does not parse; otherwise it returns the parsed title and content |
| NotePost.ShareTextLength | scripts/note-post.js:69-71 | the share text is 42 units longer than title plus URL, so it is tweeted exactly when those fit in 238 |
| NotePost.ShareText | scripts/note-post.js:69 | the share text is the memo heading, the title, the closing quote and blank line, the URL, then the hashtags |
| NotePost.RecordTitle | scripts/note-post.js:80 | the record title is `[Note] `, the theme, then ` - ` and the date |
| NotePost.RecordBody | scripts/note-post.js:81 | the record body contains the theme and the URL, and ends with the first 500 units of the content and `...` |
| NotePost.Step | scripts/note-post.js:46-90 | the posted note records are listed first; the run completes exactly when the article, its publication, the tweet when the text fits, and the record succeed; an over-long share text is not tweeted, but the record is still written |
| NotePost.Publish | scripts/note-post.js:55-83 | after theme selection the order is Claude, note, tweet, record; a failure stops the run with the ledger unchanged |
| NotePost.Release | scripts/note-post.js:63-83 | once the article is written, the calls are the listing of note records, Claude, then publishing on note; the run completes exactly when publishing, the tweet (when the text fits) and the record all succeed, the ledger is unchanged otherwise, and a tweet is sent only for a published article whose share text fits |
| NotePost.ShareThenRecord | scripts/note-post.js:69-83 | the tweet goes out only if it fits; the record is written whether or not the share text fits; when it fits, a failed tweet ends the run before the record |
| NotePost.Record | scripts/note-post.js:79-83 | a completed record adds one issue labelled exactly `posted` and `note`, whose body holds the theme and the URL, and whose title gives the theme back to the note-theme regex |
| NotePost.RecordedThemeReadsBack | scripts/note-post.js:27-30 | the theme regex reads a recorded theme back from its record title |
| NotePost.NoThemeTwice | scripts/note-post.js:23-44 | after a completed run, the next run picks a different theme while any theme is unposted |
| NotePost.LazyExtractorCutsNinthTheme | scripts/lib/github-client.js:95-98 | the lazy title regex cuts the ninth theme at its own ` - `, while the note job's greedy regex reads it whole |
| NotePost.TitleOfSplitTheme | scripts/lib/github-client.js:95-98 | for any theme made of one-line names, ` -` and more, the lazy title regex yields the names alone |

## Left out

- Prompt texts, the Anthropic client (`scripts/lib/claude-client.js`) and the legends file read: Claude's answers and the legend list are inputs.
- `postToNote` and the note login script: browser automation with timed waits. Only the URL it resolves to, or its failure, is an input.
- The interactive OAuth script and `scripts/lib/secret-updater.js`: an HTTP callback server and a sealed-box encryption wrapper that no job calls.
- Logging, `process.exit` semantics and the issue number `recordPost` logs.
- Clocks and time zones: `now` is a given ISO timestamp. `getMonth()` reads local time, and the model takes the month as an input.
- Concurrent runs: two runs can both pass a gate before either records. The model runs one job at a time.
- Pagination: the code reads one page of 100 issues, and so does the model.
- Ledger.GetPostedIssues: assumes GitHub's newest-first default order. The code does not request an order.
- Ledger.RecordPost: `created_at` is taken to be the job's `now`. The server actually assigns it.
- NewsPost.FetchLatestNews: the parsed payload is an object with string `title`, `summary` and `source`. A payload of another shape (`null`, missing fields) is not modelled.
- NotePost.GenerateNoteArticle: the parsed payload is an object with string `title` and `content`. Missing fields are not modelled.
- LegendPost.Legend: only `id`, `name`, `birth_year` and `death_year` are modelled. Every entry is assumed to carry array-valued `achievements` and `quotes`. The prompt calls `.map` on both (scripts/legend-post.js:34 and :37), so an entry without them makes the run throw before Claude is asked and exit 1; the model does not show that failure. The remaining profile fields only feed the prompt.
- Numerals.Decimal: writes every digit of any integer. JavaScript's `${n}` switches to exponent form (`1e+21`) from a magnitude of 10^21, and `JSON.parse` rounds integers beyond 2^53, so `LegendPost.Lifespan` and `LifespanDistinguishes` hold as stated only for birth and death years that are safe integers, which real years are.
- Texts.Encode: the UTF-16 encoder is defined for Dafny strings. String literals are converted by `Units`, which covers the Basic Multilingual Plane, and by `Encode` for the one emoji.

=== FILE: daily.dfy ===
/** The daily post job (scripts/daily-post.js): once per UTC day, ask Claude for a post, tweet it,
    then record it in the ledger under `daily`. The protocol itself is
    `DayGated.Step`. */
module DailyPost {
  import opened Wrappers
  import opened Texts
  import opened Ledger
  import opened Seasons
  import opened Runs
  import X = XClient
  import DayGated

  const Kind: Text := Units("daily")
  const TitlePrefix: Text := Units("[Daily] ")

  const SpringContext: Text := Units("春 - 爽やかな季節、桜とウィスキー")
  const SummerContext: Text := Units("夏 - ハイボールの季節、爽快感")
  const AutumnContext: Text := Units("秋 - 深みのある味わい、読書の秋")
  const WinterContext: Text := Units("冬 - 温かい部屋でじっくり、ホットウィスキー")

  /** `getSeasonContext()`: the season line of the prompt. */
  function SeasonContext(month: Month): (r: Text)
    ensures r == [WinterContext, SpringContext, SummerContext, AutumnContext][Quarter(month)]
  {
    Seasonal(month, SpringContext, SummerContext, AutumnContext, WinterContext)
  }

  /** Two months get the same season line exactly when they fall in the
      same season: the four lines differ. */
  lemma SeasonPartition(m1: Month, m2: Month)
    ensures SeasonContext(m1) == SeasonContext(m2) <==> Quarter(m1) == Quarter(m2)
  {
    assert SpringContext[0] != SummerContext[0] && SpringContext[0] != AutumnContext[0];
    assert SpringContext[0] != WinterContext[0] && SummerContext[0] != AutumnContext[0];
    assert SummerContext[0] != WinterContext[0] && AutumnContext[0] != WinterContext[0];
    SeasonalPartition(m1, m2, SpringContext, SummerContext, AutumnContext, WinterContext);
  }

  /** `main()` at the instant `now`, with Claude answering `reply`
      (`None` when the call throws). */
  function Step(log: Log, now: Text, svc: X.Service, gh: GitHub, reply: Option<Text>): (r: Run)
    ensures gh.listOk && IsPostedToday(log, [Kind], now) ==> r.exit == Skipped && r.log == log
    ensures r.exit == Completed <==>
      && gh.listOk && !IsPostedToday(log, [Kind], now) && reply.Some?
      && X.PostToX(svc, reply.value).result.Success? && gh.createOk
    ensures r.exit == Completed ==>
      && r.log == RecordPost(log, TitlePrefix + DatePart(now), reply.value, [Kind], now)
      && r.log[|log|].labels == {Posted, Kind}
  {
    DayGated.Step(Kind, TitlePrefix, log, now, svc, gh, reply)
  }
}

=== FILE: day_gated.dfy ===
/** The protocol the daily and the pairing jobs share
    (scripts/daily-post.js, scripts/pairing-post.js): once per UTC day,
    ask Claude for a post, tweet it, then record it in the ledger. */
module DayGated {
  import opened Wrappers
  import opened Texts
  import opened Ledger
  import opened Runs
  import X = XClient

  /** `${titlePrefix}${date}`: on a `toISOString()` timestamp the title
      ends in the ten-unit `YYYY-MM-DD` of the UTC day. */
  function RecordTitle(titlePrefix: Text, now: Text): (r: Text)
    ensures At(r, 0, titlePrefix)
    ensures IsIsoTimestamp(now) ==> |r| == |titlePrefix| + 10 && IsIsoDate(r[|titlePrefix|..])
    ensures IsIsoTimestamp(now) ==> r[|titlePrefix|..] == now[..10]
  {
    var r := titlePrefix + DatePart(now);
    assert r[0..|titlePrefix|] == titlePrefix;
    assert r[|titlePrefix|..] == DatePart(now);
    if IsIsoTimestamp(now) then
      IsoDatePart(now);
      r
    else r
  }

  /** Two runs of the same job get the same record title exactly when they
      fall on the same UTC day. */
  lemma RecordTitleNamesTheDay(titlePrefix: Text, now: Text, later: Text)
    ensures RecordTitle(titlePrefix, now) == RecordTitle(titlePrefix, later) <==> DatePart(now) == DatePart(later)
  {
    var a, b := RecordTitle(titlePrefix, now), RecordTitle(titlePrefix, later);
    if a == b {
      assert DatePart(now) == a[|titlePrefix|..] == b[|titlePrefix|..] == DatePart(later);
    }
  }

  /** The `main()` of a once-a-day job at the instant `now`: gate on
      `kind`, ask Claude (answering `reply`, `None` when the call throws),
      tweet the answer, record it under `titlePrefix` + date. */
  function Step(kind: Text, titlePrefix: Text, log: Log, now: Text, svc: X.Service, gh: GitHub, reply: Option<Text>): (r: Run)
    ensures |r.calls| >= 1 && r.calls[0] == ListIssues(WithPosted([kind]))
    ensures gh.listOk && IsPostedToday(log, [kind], now) ==>
      r == Run(log, [ListIssues(WithPosted([kind]))], Skipped)
    ensures r.exit == Skipped ==> gh.listOk && IsPostedToday(log, [kind], now)
    ensures r.exit == Completed <==>
      && gh.listOk && !IsPostedToday(log, [kind], now) && reply.Some?
      && X.PostToX(svc, reply.value).result.Success? && gh.createOk
    ensures r.exit == Completed ==>
      r.log == RecordPost(log, titlePrefix + DatePart(now), reply.value, [kind], now)
    ensures r.exit == Completed ==>
      && |r.log| == |log| + 1 && r.log[..|log|] == log
      && r.log[|log|].title == titlePrefix + DatePart(now)
      && r.log[|log|].body == StoredBody(reply.value, now)
      && r.log[|log|].labels == {Posted, kind}
      && r.log[|log|].createdAt == now
    ensures r.exit != Completed ==> r.log == log
    ensures Tweets(r.calls) ==> gh.listOk && !IsPostedToday(log, [kind], now) && reply.Some?
  {
    var list := [ListIssues(WithPosted([kind]))];
    if !gh.listOk then Run(log, list, Failed)
    else if IsPostedToday(log, [kind], now) then Run(log, list, Skipped)
    else
      var asked := list + [AskClaude];
      match reply
      case None => Run(log, asked, Failed)
      case Some(text) =>
        var r := PostThenRecord(log, now, svc, gh, text, RecordTitle(titlePrefix, now), text, [kind], asked);
        assert r.calls == asked + r.calls[|asked|..];
        assert r.exit == Completed ==> r.log[|log|].labels == {Posted, kind};
        r
  }

  /** After a completed run, every later run on the same UTC day stops at
      the gate: it neither asks Claude nor tweets nor records. */
  lemma OncePerDay(
    kind: Text, titlePrefix: Text,
    log: Log, now: Text, svc: X.Service, gh: GitHub, reply: Option<Text>,
    later: Text, svc': X.Service, gh': GitHub, reply': Option<Text>)
    requires Step(kind, titlePrefix, log, now, svc, gh, reply).exit == Completed
    requires DatePart(later) == DatePart(now) && gh'.listOk
    ensures
      var first := Step(kind, titlePrefix, log, now, svc, gh, reply);
      Step(kind, titlePrefix, first.log, later, svc', gh', reply') == Run(first.log, [ListIssues(WithPosted([kind]))], Skipped)
  {
    RecordThenPostedToday(log, RecordTitle(titlePrefix, now), reply.value, [kind], now, [kind], later);
  }

  /** If the tweet goes out but recording it throws, the ledger is left
      unchanged, so a rerun the same day passes the gate and tweets the
      same text again. */
  lemma RecordFailureAllowsRepost(
    kind: Text, titlePrefix: Text,
    log: Log, now: Text, svc: X.Service, reply: Option<Text>, later: Text)
    requires !IsPostedToday(log, [kind], now) && DatePart(later) == DatePart(now)
    requires reply.Some? && X.PostToX(svc, reply.value).result.Success?
    ensures
      var first := Step(kind, titlePrefix, log, now, svc, GitHub(true, false), reply);
      var rerun := Step(kind, titlePrefix, first.log, later, svc, GitHub(true, true), reply);
      && first.exit == Failed && first.log == log && Tweets(first.calls)
      && rerun.exit == Completed && Tweets(rerun.calls)
  {
  }
}

=== FILE: ledger.dfy ===
/** The posting ledger: GitHub Issues used as an append-only log of what
    the bot has posted, and the dedup gates that read it back
    (scripts/lib/github-client.js). */
module Ledger {
  import opened Wrappers
  import opened Texts
  import opened Patterns

  /** One issue as the list endpoint returns it. `createdAt` is the issue's
      ISO-8601 UTC creation time. */
  datatype Issue = Issue(title: Text, body: Text, labels: set<Text>, createdAt: Text)

  /** Every issue ever created, oldest first. Issues are never edited or
      closed by the bot. */
  type Log = seq<Issue>

  const Posted: Text := Units("posted")

  /** `per_page: 100`, and no further page is requested. */
  const PageSize: nat := 100

  const ContentHeading: Text := Units("## 投稿内容\n\n")
  const TimeHeading: Text := Units("\n\n## 投稿日時\n\n")

  /** The issue body `recordPost` writes around the caller's body. */
  function StoredBody(body: Text, timestamp: Text): (r: Text)
    ensures Includes(r, body) && Includes(r, timestamp)
    ensures At(r, 0, ContentHeading) && At(r, |ContentHeading|, body)
  {
    var r := ContentHeading + body + (TimeHeading + timestamp);
    assert At(r, 0, ContentHeading) by {
      assert r[0..|ContentHeading|] == ContentHeading;
    }
    assert At(r, |ContentHeading|, body) by {
      assert r[|ContentHeading|..|ContentHeading| + |body|] == body;
    }
    assert At(r, |r| - |timestamp|, timestamp) by {
      assert r[|r| - |timestamp|..] == timestamp;
    }
    r
  }

  /** The label set a call with `labels` stores and asks for. */
  function WithPosted(labels: seq<Text>): (r: set<Text>)
    ensures Posted in r
    ensures forall l :: l in r <==> l == Posted || l in labels
  {
    {Posted} + set l | l in labels
  }

  /** `recordPost(title, body, labels)`, issued at the instant `now`: one
      new issue at the end of the log. */
  function RecordPost(log: Log, title: Text, body: Text, labels: seq<Text>, now: Text): (r: Log)
    ensures |r| == |log| + 1 && r[..|log|] == log
    ensures r[|log|].title == title && r[|log|].createdAt == now
    ensures Posted in r[|log|].labels
    ensures forall l :: l in r[|log|].labels <==> l == Posted || l in labels
    ensures Includes(r[|log|].body, body) && Includes(r[|log|].body, now)
  {
    log + [Issue(title, StoredBody(body, now), WithPosted(labels), now)]
  }

  /** The issues carrying every label of `want`, newest first. */
  function Matching(log: Log, want: set<Text>): (r: seq<Issue>)
    ensures |r| <= |log|
    ensures forall e :: e in r <==> e in log && want <= e.labels
    ensures |log| > 0 && want <= log[|log| - 1].labels ==> |r| > 0 && r[0] == log[|log| - 1]
  {
    if |log| == 0 then []
    else
      var last := log[|log| - 1];
      var older := Matching(log[..|log| - 1], want);
      assert log == log[..|log| - 1] + [last];
      if want <= last.labels then [last] + older else older
  }

  lemma MatchingAppend(log: Log, e: Issue, want: set<Text>)
    ensures Matching(log + [e], want) == (if want <= e.labels then [e] else []) + Matching(log, want)
  {
    assert (log + [e])[..|log|] == log;
  }

  /** `getPostedIssues(labels)`: one page of at most 100 issues that carry
      `posted` and every requested label, newest first. */
  function GetPostedIssues(log: Log, labels: seq<Text>): (r: seq<Issue>)
    ensures |r| <= PageSize
    ensures forall e :: e in r ==> e in log && WithPosted(labels) <= e.labels
    ensures |r| == if |Matching(log, WithPosted(labels))| <= PageSize then |Matching(log, WithPosted(labels))| else PageSize
    ensures r == Matching(log, WithPosted(labels))[..|r|]
    ensures |log| > 0 && WithPosted(labels) <= log[|log| - 1].labels ==> |r| > 0 && r[0] == log[|log| - 1]
  {
    var m := Matching(log, WithPosted(labels));
    if |m| <= PageSize then m else m[..PageSize]
  }

  /** When at most a page of issues match, the page holds all of them. */
  lemma PageIsCompleteBelowCap(log: Log, labels: seq<Text>, e: Issue)
    requires |Matching(log, WithPosted(labels))| <= PageSize
    requires e in log && WithPosted(labels) <= e.labels
    ensures e in GetPostedIssues(log, labels)
  {
  }

  /** `isPostedToday(labels)` at the instant `now`. */
  predicate IsPostedToday(log: Log, labels: seq<Text>, now: Text)
  {
    exists e :: e in GetPostedIssues(log, labels) && DatePart(e.createdAt) == DatePart(now)
  }

  /** `isContentPosted(content, labels)`. */
  predicate IsContentPosted(log: Log, content: Text, labels: seq<Text>)
  {
    exists e :: e in GetPostedIssues(log, labels) && (Includes(e.title, content) || Includes(e.body, content))
  }

  /** The day gate fires only on a recorded issue with the labels from the
      same UTC day; while at most a page of issues carry the labels, every
      such issue fires it. */
  lemma PostedTodayMeans(log: Log, labels: seq<Text>, now: Text)
    ensures IsPostedToday(log, labels, now) ==>
      exists e :: e in log && WithPosted(labels) <= e.labels && DatePart(e.createdAt) == DatePart(now)
    ensures |Matching(log, WithPosted(labels))| <= PageSize ==>
      (IsPostedToday(log, labels, now) <==>
        exists e :: e in log && WithPosted(labels) <= e.labels && DatePart(e.createdAt) == DatePart(now))
  {
    if |Matching(log, WithPosted(labels))| <= PageSize {
      forall e | e in log && WithPosted(labels) <= e.labels
        ensures e in GetPostedIssues(log, labels)
      {
        PageIsCompleteBelowCap(log, labels, e);
      }
    }
  }

  /** The content gate fires only on a recorded issue with the labels
      whose title or body contains the text; while at most a page of
      issues carry the labels, every such issue fires it. */
  lemma ContentPostedMeans(log: Log, content: Text, labels: seq<Text>)
    ensures IsContentPosted(log, content, labels) ==>
      exists e :: e in log && WithPosted(labels) <= e.labels && (Includes(e.title, content) || Includes(e.body, content))
    ensures |Matching(log, WithPosted(labels))| <= PageSize ==>
      (IsContentPosted(log, content, labels) <==>
        exists e :: e in log && WithPosted(labels) <= e.labels && (Includes(e.title, content) || Includes(e.body, content)))
  {
    if |Matching(log, WithPosted(labels))| <= PageSize {
      forall e | e in log && WithPosted(labels) <= e.labels
        ensures e in GetPostedIssues(log, labels)
      {
        PageIsCompleteBelowCap(log, labels, e);
      }
    }
  }

  /** Neither gate fires on an empty ledger. */
  lemma EmptyLedgerGatesOpen(labels: seq<Text>, now: Text, content: Text)
    ensures !IsPostedToday([], labels, now)
    ensures !IsContentPosted([], content, labels)
  {
  }

  /** Recording closes the day gate for every label subset of the record,
      for the rest of the record's UTC day. */
  lemma {:induction false} RecordThenPostedToday(log: Log, title: Text, body: Text, labels: seq<Text>, now: Text, query: seq<Text>, later: Text)
    requires forall l :: l in query ==> l in labels
    requires DatePart(later) == DatePart(now)
    ensures IsPostedToday(RecordPost(log, title, body, labels, now), query, later)
  {
    var log' := RecordPost(log, title, body, labels, now);
    var e := log'[|log|];
    assert WithPosted(query) <= e.labels;
    assert e in GetPostedIssues(log', query);
  }

  /** Appending an issue can only push the oldest issue off the page; it
      never brings back an issue the page did not already show. */
  lemma {:induction false} PageAfterAppend(log: Log, e: Issue, query: seq<Text>, x: Issue)
    requires x in GetPostedIssues(log + [e], query) && x != e
    ensures x in GetPostedIssues(log, query)
  {
    var want := WithPosted(query);
    MatchingAppend(log, e, want);
    var m := Matching(log, want);
    var page, page' := GetPostedIssues(log, query), GetPostedIssues(log + [e], query);
    if want <= e.labels {
      var k :| 0 <= k < |page'| && page'[k] == x;
      assert page'[k] == ([e] + m)[k];
      assert k > 0;
      assert x == m[k - 1];
      assert page[k - 1] == x;
    } else {
      assert page' == page;
    }
  }

  /** Recording one issue can close the day gate only for its own day: on
      any other day the gate reads as it did before. */
  lemma RecordOnlyClosesItsOwnDay(log: Log, title: Text, body: Text, labels: seq<Text>, now: Text, query: seq<Text>, day: Text)
    requires DatePart(day) != DatePart(now)
    requires IsPostedToday(RecordPost(log, title, body, labels, now), query, day)
    ensures IsPostedToday(log, query, day)
  {
    var log' := RecordPost(log, title, body, labels, now);
    var e := log'[|log|];
    assert log' == log + [e];
    var x :| x in GetPostedIssues(log', query) && DatePart(x.createdAt) == DatePart(day);
    PageAfterAppend(log, e, query, x);
  }

  /** Recording makes the body, and any part of the title, visible to the
      content gate. */
  lemma {:induction false} RecordThenContentPosted(log: Log, title: Text, body: Text, labels: seq<Text>, now: Text, query: seq<Text>, fragment: Text)
    requires forall l :: l in query ==> l in labels
    requires Includes(title, fragment) || Includes(body, fragment)
    ensures IsContentPosted(RecordPost(log, title, body, labels, now), fragment, query)
  {
    var log' := RecordPost(log, title, body, labels, now);
    var e := log'[|log|];
    assert WithPosted(query) <= e.labels;
    assert e in GetPostedIssues(log', query);
    if !Includes(title, fragment) {
      IncludesTransitive(e.body, body, fragment);
    }
  }

  /** The title `getPostedTitles` reports for one issue title. */
  function TitleOf(title: Text): (r: Text)
    ensures BracketTitle(title).None? ==> r == title
    ensures BracketTitle(title).Some? ==> 1 <= |r| && SingleLine(r) && Includes(title, r)
    ensures BracketTitle(title).Some? ==> exists i, s, p :: LazyTitle(title, i, s, p) && r == title[s..p]
  {
    match BracketTitle(title)
    case Some(c) => c
    case None => title
  }

  /** `getPostedTitles(labels)`: one title per issue of the page, in order. */
  function GetPostedTitles(log: Log, labels: seq<Text>): (r: seq<Text>)
    ensures |r| == |GetPostedIssues(log, labels)| <= PageSize
    ensures forall i :: 0 <= i < |r| ==> r[i] == TitleOf(GetPostedIssues(log, labels)[i].title)
  {
    var page := GetPostedIssues(log, labels);
    seq(|page|, i requires 0 <= i < |page| => TitleOf(page[i].title))
  }
}

=== FILE: legend.dfy ===
/** The legend job (scripts/legend-post.js): once per UTC day, pick a
    distiller from the legends file at random, have Claude speak as them,
    tweet it, and record it under `legend` and the legend's id. */
module LegendPost {
  import opened Wrappers
  import opened Texts
  import opened Numerals
  import opened Patterns
  import opened Ledger
  import opened Runs
  import X = XClient

  /** The fields of a legends-file entry the job's control flow and its
      record use; `deathYear` is `None` when the field is absent or null. */
  datatype Legend = Legend(id: Text, name: Text, birthYear: int, deathYear: Option<int>)

  const Kind: Text := Units("legend")
  const TitlePrefix: Text := Units("[Legend] ")
  const NameHeading: Text := Units("**レジェンド**: ")
  const YearMark: CodeUnit := 0x5E74
  const StillActive: Text := Units("現在")

  /** `legend.death_year` is truthy: present and not 0. */
  predicate HasDied(l: Legend)
  {
    l.deathYear.Some? && l.deathYear.value != 0
  }

  /** What follows ` - ` in the profile line. */
  function Ending(l: Legend): Text
  {
    if HasDied(l) then Decimal(l.deathYear.value) + [YearMark] else StillActive
  }

  /** The profile line `生年: …`: `birth年 - death年`, or `birth年 - 現在`
      when the death year is falsy. */
  function Lifespan(l: Legend): (r: Text)
    ensures 2 <= |r|
    ensures
      var front := Decimal(l.birthYear) + [YearMark] + Separator;
      |front| <= |r| && r[..|front|] == front
    ensures r[|r| - 1] == YearMark <==> HasDied(l)
    ensures HasDied(l) ==>
      var death := Decimal(l.deathYear.value) + [YearMark];
      |death| <= |r| && r[|r| - |death|..] == death
    ensures !HasDied(l) ==> r[|r| - |StillActive|..] == StillActive
    ensures |r| == |Decimal(l.birthYear)| + 1 + |Separator| + |Ending(l)|
  {
    var front := Decimal(l.birthYear) + [YearMark] + Separator;
    var r := Decimal(l.birthYear) + [YearMark] + (Separator + Ending(l));
    assert r == front + Ending(l);
    assert r[..|front|] == front;
    assert r[|front|..] == Ending(l);
    r
  }

  /** `a + [YearMark] + x == b + [YearMark] + z` splits the same way on
      both sides when neither `a` nor `b` holds the mark. */
  lemma SplitAtMark(a: Text, x: Text, b: Text, z: Text)
    requires forall i :: 0 <= i < |a| ==> a[i] != YearMark
    requires forall i :: 0 <= i < |b| ==> b[i] != YearMark
    requires a + [YearMark] + x == b + [YearMark] + z
    ensures a == b && x == z
  {
    var t := a + [YearMark] + x;
    assert t[|a|] == YearMark && (b + [YearMark] + z)[|b|] == YearMark;
    assert forall i :: 0 <= i < |a| ==> t[i] == a[i];
    assert forall i :: 0 <= i < |b| ==> t[i] == b[i];
    assert |a| == |b|;
    assert a == t[..|a|];
    assert x == t[|a| + 1..];
  }

  /** The ending tells whether the legend has died, and the year if so. */
  lemma EndingDistinguishes(a: Legend, b: Legend)
    requires Ending(a) == Ending(b)
    ensures HasDied(a) == HasDied(b)
    ensures HasDied(a) ==> a.deathYear.value == b.deathYear.value
  {
    var e := Ending(a);
    assert HasDied(a) <==> IsDigit(e[0]) || e[0] == Hyphen;
    assert HasDied(b) <==> IsDigit(e[0]) || e[0] == Hyphen;
    if HasDied(a) && HasDied(b) {
      var da := Decimal(a.deathYear.value);
      var db := Decimal(b.deathYear.value);
      assert da == e[..|e| - 1] == db;
      DecimalInjective(a.deathYear.value, b.deathYear.value);
    }
  }

  /** The parts of two equal profile lines agree. */
  lemma LifespanParts(a: Legend, b: Legend)
    requires Decimal(a.birthYear) + [YearMark] + (Separator + Ending(a))
          == Decimal(b.birthYear) + [YearMark] + (Separator + Ending(b))
    ensures a.birthYear == b.birthYear && Ending(a) == Ending(b)
  {
    SplitAtMark(Decimal(a.birthYear), Separator + Ending(a), Decimal(b.birthYear), Separator + Ending(b));
    DecimalInjective(a.birthYear, b.birthYear);
    assert Ending(a) == (Separator + Ending(a))[|Separator|..];
    assert Ending(b) == (Separator + Ending(b))[|Separator|..];
  }

  /** The profile line tells the birth year, whether the legend has died,
      and the death year if so: two legends share it exactly when they
      agree on those. */
  lemma LifespanDistinguishes(a: Legend, b: Legend)
    ensures Lifespan(a) == Lifespan(b) <==>
      && a.birthYear == b.birthYear && HasDied(a) == HasDied(b)
      && (HasDied(a) ==> a.deathYear.value == b.deathYear.value)
  {
    if Lifespan(a) == Lifespan(b) {
      LifespanParts(a, b);
      EndingDistinguishes(a, b);
    }
  }

  /** `legends[Math.floor(Math.random() * legends.length)]`. */
  function Choose(legends: seq<Legend>, draw: real): (l: Legend)
    requires 0.0 <= draw < 1.0 && |legends| > 0
    ensures l in legends
  {
    legends[Pick(draw, |legends|)]
  }

  /** `[Legend] ${legend.name} - ${date}`. */
  function RecordTitle(l: Legend, now: Text): (r: Text)
    ensures At(r, 0, TitlePrefix) && At(r, |TitlePrefix|, l.name)
    ensures At(r, |TitlePrefix| + |l.name|, Separator + DatePart(now))
    ensures |r| == |TitlePrefix| + |l.name| + |Separator| + |DatePart(now)|
  {
    var r := TitlePrefix + l.name + Separator + DatePart(now);
    assert r == TitlePrefix + l.name + (Separator + DatePart(now));
    AtFrame(TitlePrefix, l.name, Separator + DatePart(now));
    r
  }

  /** `**レジェンド**: ${legend.name}` and a blank line before the text. */
  function RecordBody(l: Legend, text: Text): (r: Text)
    ensures At(r, 0, NameHeading) && At(r, |NameHeading|, l.name)
    ensures At(r, |NameHeading| + |l.name|, BlankLine + text)
    ensures |r| == |NameHeading| + |l.name| + |BlankLine| + |text|
  {
    var r := NameHeading + l.name + BlankLine + text;
    assert r == NameHeading + l.name + (BlankLine + text);
    AtFrame(NameHeading, l.name, BlankLine + text);
    r
  }

  /** `main()` at the instant `now`. `legends` is what `loadLegends()`
      returns (`None` when reading or parsing the file throws), `draw` is
      `Math.random()` and `reply` is Claude's answer (`None` when the call
      throws). */
  function Step(
    log: Log, now: Text, svc: X.Service, gh: GitHub,
    legends: Option<seq<Legend>>, draw: real, reply: Option<Text>): (r: Run)
    requires 0.0 <= draw < 1.0
    ensures |r.calls| >= 1 && r.calls[0] == ListIssues(WithPosted([Kind]))
    ensures gh.listOk && IsPostedToday(log, [Kind], now) ==>
      r == Run(log, [ListIssues(WithPosted([Kind]))], Skipped)
    ensures r.exit == Skipped ==> gh.listOk && IsPostedToday(log, [Kind], now)
    ensures LoadLegends in r.calls ==> gh.listOk && !IsPostedToday(log, [Kind], now)
    ensures r.exit == Completed <==>
      && gh.listOk && !IsPostedToday(log, [Kind], now)
      && legends.Some? && |legends.value| > 0 && reply.Some?
      && X.PostToX(svc, reply.value).result.Success? && gh.createOk
    ensures r.exit == Completed ==>
      var l := Choose(legends.value, draw);
      && l in legends.value
      && r.log == RecordPost(log, RecordTitle(l, now), RecordBody(l, reply.value), [Kind, l.id], now)
      && r.log[|log|].labels == {Posted, Kind, l.id}
    ensures r.exit != Completed ==> r.log == log
    ensures Tweets(r.calls) ==>
      && gh.listOk && !IsPostedToday(log, [Kind], now)
      && legends.Some? && |legends.value| > 0 && reply.Some?
  {
    var list := [ListIssues(WithPosted([Kind]))];
    if !gh.listOk then Run(log, list, Failed)
    else if IsPostedToday(log, [Kind], now) then Run(log, list, Skipped)
    else
      var r := Load(log, now, svc, gh, legends, draw, reply, list);
      assert !Tweets(list) by {
        assert !list[0].OnX?;
      }
      assert r.calls == list + r.calls[|list|..];
      TweetsAppend(list, r.calls[|list|..]);
      r
  }

  /** The part of `main()` past the gate (`before` holds the calls so
      far): load the legends file, choose one, and hand over to `Speak`. */
  function Load(
    log: Log, now: Text, svc: X.Service, gh: GitHub,
    legends: Option<seq<Legend>>, draw: real, reply: Option<Text>, before: seq<Call>): (r: Run)
    requires 0.0 <= draw < 1.0
    ensures |r.calls| > |before| && r.calls[..|before|] == before && r.calls[|before|] == LoadLegends
    ensures r.exit != Skipped
    ensures r.exit == Completed <==>
      && legends.Some? && |legends.value| > 0 && reply.Some?
      && X.PostToX(svc, reply.value).result.Success? && gh.createOk
    ensures r.exit == Completed ==>
      var l := Choose(legends.value, draw);
      && r.log == RecordPost(log, RecordTitle(l, now), RecordBody(l, reply.value), [Kind, l.id], now)
      && r.log[|log|].labels == {Posted, Kind, l.id}
    ensures r.exit != Completed ==> r.log == log
    ensures Tweets(r.calls[|before|..]) ==> legends.Some? && |legends.value| > 0 && reply.Some?
  {
    var loaded := before + [LoadLegends];
    assert loaded[|before|..] == [LoadLegends];
    match legends
    case None => Run(log, loaded, Failed)
    case Some(ls) =>
      // `legends[0]` of an empty list is `undefined`, and reading its
      // `name` throws
      if |ls| == 0 then Run(log, loaded, Failed)
      else
        var asked := before + [LoadLegends, AskClaude];
        assert asked == loaded + [AskClaude];
        var r := Speak(log, now, svc, gh, Choose(ls, draw), reply, asked);
        var tail := r.calls[|asked|..];
        assert r.calls == asked + tail;
        assert r.calls[|before|..] == [LoadLegends, AskClaude] + tail;
        TweetsAppend([LoadLegends, AskClaude], tail);
        r
  }

  /** The tail of `main()` once the legend `l` is chosen and Claude has
      been asked (`asked` holds the calls so far): a failed ask ends the
      run, otherwise post and record. */
  function Speak(
    log: Log, now: Text, svc: X.Service, gh: GitHub,
    l: Legend, reply: Option<Text>, asked: seq<Call>): (r: Run)
    ensures |r.calls| >= |asked| && r.calls[..|asked|] == asked
    ensures r.exit != Skipped
    ensures r.exit == Completed <==>
      reply.Some? && X.PostToX(svc, reply.value).result.Success? && gh.createOk
    ensures r.exit == Completed ==>
      && r.log == RecordPost(log, RecordTitle(l, now), RecordBody(l, reply.value), [Kind, l.id], now)
      && r.log[|log|].labels == {Posted, Kind, l.id}
    ensures r.exit != Completed ==> r.log == log
    ensures Tweets(r.calls[|asked|..]) ==> reply.Some?
  {
    match reply
    case None =>
      assert asked[|asked|..] == [];
      Run(log, asked, Failed)
    case Some(text) =>
      PostThenRecord(log, now, svc, gh, text, RecordTitle(l, now), RecordBody(l, text), [Kind, l.id], asked)
  }

  /** After a completed run, every later run on the same UTC day stops at
      the gate, whichever legend the later run would have drawn. */
  lemma OncePerDay(
    log: Log, now: Text, svc: X.Service, gh: GitHub,
    legends: Option<seq<Legend>>, draw: real, reply: Option<Text>,
    later: Text, svc': X.Service, gh': GitHub,
    legends': Option<seq<Legend>>, draw': real, reply': Option<Text>)
    requires 0.0 <= draw < 1.0 && 0.0 <= draw' < 1.0
    requires Step(log, now, svc, gh, legends, draw, reply).exit == Completed
    requires DatePart(later) == DatePart(now) && gh'.listOk
    ensures
      var first := Step(log, now, svc, gh, legends, draw, reply);
      Step(first.log, later, svc', gh', legends', draw', reply') == Run(first.log, [ListIssues(WithPosted([Kind]))], Skipped)
  {
    var l := Choose(legends.value, draw);
    RecordThenPostedToday(log, RecordTitle(l, now), RecordBody(l, reply.value), [Kind, l.id], now, [Kind], later);
  }

  /** `getPostedTitles(['legend'])` reads the legend's name back out of
      the recorded title, for a one-line name without ` -` in it. */
  lemma TitleNamesTheLegend(l: Legend, now: Text)
    requires 1 <= |l.name| && SingleLine(l.name) && forall j :: !At(l.name, j, SpaceDash)
    ensures TitleOf(RecordTitle(l, now)) == l.name
  {
    var kind := Units("Legend");
    assert TitlePrefix == [OpenBracket] + kind + BracketClose;
    assert Separator == SpaceDash + [Space];
    forall j
      ensures !At(kind, j, BracketClose)
    {
      assert j < 0 || j >= |kind| || kind[j] != BracketClose[0];
    }
    assert SingleLine(kind) by {
      assert forall i :: 0 <= i < |kind| ==> 0x41 <= kind[i] as int <= 0x7A;
    }
    var rest := [Space] + DatePart(now);
    assert RecordTitle(l, now) == [OpenBracket] + kind + BracketClose + l.name + SpaceDash + rest;
    BracketTitleOfRecordTitle(kind, l.name, rest);
  }
}

=== FILE: news.dfy ===
/** The news job (scripts/news-post.js): ask Claude for one recent whisky
    news item as fenced JSON, skip it if its title is already in a
    recorded body, otherwise tweet a summary and record it under `news`. */
module NewsPost {
  import opened Wrappers
  import opened Texts
  import opened Patterns
  import opened Ledger
  import opened Runs
  import X = XClient

  /** The parsed news item. */
  datatype News = News(title: Text, summary: Text, source: Text)

  /** `JSON.parse` of the fenced payload: `None` when it throws. */
  type Parser = Text -> Option<News>

  const Kind: Text := Units("news")
  const TitlePrefix: Text := Units("[News] ")
  const TitleLength: nat := 50
  const TitleHeading: Text := Units("**タイトル**: ")
  const SourceHeading: Text := Units("\n**出典**: ")

  /** `fetchLatestNews()` given Claude's answer `reply` (`None` when the
      call throws): the parsed payload of the first fenced JSON block, or
      `None` (the `catch` returning `null`) when there is no answer, no
      fence, or the payload does not parse. It never fails the run. */
  function FetchLatestNews(reply: Option<Text>, parse: Parser): (r: Option<News>)
    ensures r.Some? ==> reply.Some? && ExtractJson(reply.value).Some?
    ensures reply.Some? && ExtractJson(reply.value).Some? ==>
      r == parse(ExtractJson(reply.value).value)
    ensures reply.Some? && (forall i, e :: !FenceMatch(reply.value, i, e)) ==> r.None?
  {
    match reply
    case None => None
    case Some(text) =>
      match ExtractJson(text)
      case None => None
      case Some(payload) => parse(payload)
  }

  /** `isNewsPosted(title)`: some `posted` + `news` issue on the page has
      `title` in its body; issue titles are not searched. */
  predicate IsNewsPosted(log: Log, title: Text)
  {
    exists e :: e in GetPostedIssues(log, [Kind]) && Includes(e.body, title)
  }

  /** The news check fires only on a recorded `news` issue whose body
      contains the title; while at most a page of them exist, every such
      issue fires it. */
  lemma NewsPostedMeans(log: Log, title: Text)
    ensures IsNewsPosted(log, title) ==>
      exists e :: e in log && WithPosted([Kind]) <= e.labels && Includes(e.body, title)
    ensures |Matching(log, WithPosted([Kind]))| <= PageSize ==>
      (IsNewsPosted(log, title) <==> exists e :: e in log && WithPosted([Kind]) <= e.labels && Includes(e.body, title))
  {
    if |Matching(log, WithPosted([Kind]))| <= PageSize {
      forall e | e in log && WithPosted([Kind]) <= e.labels
        ensures e in GetPostedIssues(log, [Kind])
      {
        PageIsCompleteBelowCap(log, [Kind], e);
      }
    }
  }

  /** The body-only check is a narrowing of `isContentPosted` on the same
      labels. */
  lemma NewsPostedIsContentPosted(log: Log, title: Text)
    requires IsNewsPosted(log, title)
    ensures IsContentPosted(log, title, [Kind])
  {
    var e :| e in GetPostedIssues(log, [Kind]) && Includes(e.body, title);
  }

  /** `[News] ${news.title.substring(0, 50)} - ${date}`. */
  function RecordTitle(n: News, now: Text): (r: Text)
    ensures |TitlePrefix| <= |r| && r[..|TitlePrefix|] == TitlePrefix
    ensures At(r, |TitlePrefix|, Take(n.title, TitleLength))
    ensures
      var tail := Separator + DatePart(now);
      |tail| <= |r| && r[|r| - |tail|..] == tail
    ensures |r| == |TitlePrefix| + |Take(n.title, TitleLength)| + |Separator| + |DatePart(now)|
    ensures |n.title| <= TitleLength ==> Includes(r, n.title)
  {
    var short := Take(n.title, TitleLength);
    var tail := Separator + DatePart(now);
    var r := TitlePrefix + short + tail;
    assert r[..|TitlePrefix|] == TitlePrefix;
    assert At(r, |TitlePrefix|, short) by {
      assert r[|TitlePrefix|..|TitlePrefix| + |short|] == short;
    }
    assert r[|r| - |tail|..] == tail;
    assert |n.title| <= TitleLength ==> short == n.title;
    r
  }

  /** The record body: the full title, the source, then the tweet text. */
  function RecordBody(n: News, text: Text): (r: Text)
    ensures Includes(r, n.title) && Includes(r, text)
  {
    var tail := SourceHeading + n.source + BlankLine;
    var r := TitleHeading + n.title + (tail + text);
    assert At(r, |TitleHeading|, n.title) by {
      assert r[|TitleHeading|..|TitleHeading| + |n.title|] == n.title;
    }
    assert At(r, |r| - |text|, text) by {
      assert r[|r| - |text|..] == text;
    }
    r
  }

  /** `main()` at the instant `now`: `fetched` is Claude's answer to the
      news request, `parse` stands for `JSON.parse`, `reply` is Claude's
      answer to the summary request (each `None` when the call throws). */
  function Step(
    log: Log, now: Text, svc: X.Service, gh: GitHub,
    fetched: Option<Text>, parse: Parser, reply: Option<Text>): (r: Run)
    ensures |r.calls| >= 1 && r.calls[0] == AskClaude
    ensures FetchLatestNews(fetched, parse).None? ==> r == Run(log, [AskClaude], Skipped)
    ensures
      var news := FetchLatestNews(fetched, parse);
      news.Some? && gh.listOk && IsNewsPosted(log, news.value.title) ==>
        r == Run(log, [AskClaude, ListIssues(WithPosted([Kind]))], Skipped)
    ensures r.exit == Skipped ==>
      var news := FetchLatestNews(fetched, parse);
      news.None? || (gh.listOk && IsNewsPosted(log, news.value.title))
    ensures r.exit == Completed <==>
      var news := FetchLatestNews(fetched, parse);
      && news.Some? && gh.listOk && !IsNewsPosted(log, news.value.title)
      && reply.Some? && X.PostToX(svc, reply.value).result.Success? && gh.createOk
    ensures r.exit == Completed ==>
      var n := FetchLatestNews(fetched, parse).value;
      r.log == RecordPost(log, RecordTitle(n, now), RecordBody(n, reply.value), [Kind], now)
    ensures r.exit != Completed ==> r.log == log
    ensures Tweets(r.calls) ==>
      var news := FetchLatestNews(fetched, parse);
      news.Some? && gh.listOk && !IsNewsPosted(log, news.value.title) && reply.Some?
  {
    match FetchLatestNews(fetched, parse)
    case None => Run(log, [AskClaude], Skipped)
    case Some(n) => Check(log, now, svc, gh, n, reply)
  }

  /** `main()` once the first answer has yielded the news item `n`: the
      dedup check against the page of `news` records, then the summary. */
  function Check(
    log: Log, now: Text, svc: X.Service, gh: GitHub, n: News, reply: Option<Text>): (r: Run)
    ensures |r.calls| >= 2 && r.calls[0] == AskClaude && r.calls[1] == ListIssues(WithPosted([Kind]))
    ensures gh.listOk && IsNewsPosted(log, n.title) ==>
      r == Run(log, [AskClaude, ListIssues(WithPosted([Kind]))], Skipped)
    ensures r.exit == Skipped ==> gh.listOk && IsNewsPosted(log, n.title)
    ensures r.exit == Completed <==>
      && gh.listOk && !IsNewsPosted(log, n.title)
      && reply.Some? && X.PostToX(svc, reply.value).result.Success? && gh.createOk
    ensures r.exit == Completed ==>
      r.log == RecordPost(log, RecordTitle(n, now), RecordBody(n, reply.value), [Kind], now)
    ensures r.exit != Completed ==> r.log == log
    ensures Tweets(r.calls) ==> gh.listOk && !IsNewsPosted(log, n.title) && reply.Some?
  {
    var list := [AskClaude, ListIssues(WithPosted([Kind]))];
    if !gh.listOk then Run(log, list, Failed)
    else if IsNewsPosted(log, n.title) then Run(log, list, Skipped)
    else
      var asked := list + [AskClaude];
      var r := Comment(log, now, svc, gh, n, reply, asked);
      var tail := r.calls[|asked|..];
      assert r.calls == asked + tail;
      assert !Tweets(asked) by {
        assert forall i :: 0 <= i < |asked| ==> !asked[i].OnX?;
      }
      TweetsAppend(asked, tail);
      r
  }

  /** The part of `main()` past the dedup check, once Claude has been
      asked for a comment on `n` (`asked` holds the calls so far): a failed
      ask ends the run, otherwise post and record. */
  function Comment(
    log: Log, now: Text, svc: X.Service, gh: GitHub,
    n: News, reply: Option<Text>, asked: seq<Call>): (r: Run)
    ensures |r.calls| >= |asked| && r.calls[..|asked|] == asked
    ensures r.exit != Skipped
    ensures r.exit == Completed <==>
      reply.Some? && X.PostToX(svc, reply.value).result.Success? && gh.createOk
    ensures r.exit == Completed ==>
      r.log == RecordPost(log, RecordTitle(n, now), RecordBody(n, reply.value), [Kind], now)
    ensures r.exit != Completed ==> r.log == log
    ensures Tweets(r.calls[|asked|..]) ==> reply.Some?
  {
    match reply
    case None =>
      assert asked[|asked|..] == [];
      Run(log, asked, Failed)
    case Some(text) =>
      PostThenRecord(log, now, svc, gh, text, RecordTitle(n, now), RecordBody(n, text), [Kind], asked)
  }

  /** Recording a news item closes the dedup check for its title, however
      long the title is: the record title keeps only 50 code units, but
      the body keeps all of it. */
  lemma {:induction false} RecordThenNewsPosted(log: Log, n: News, text: Text, now: Text)
    ensures IsNewsPosted(RecordPost(log, RecordTitle(n, now), RecordBody(n, text), [Kind], now), n.title)
  {
    var log' := RecordPost(log, RecordTitle(n, now), RecordBody(n, text), [Kind], now);
    var e := log'[|log|];
    assert WithPosted([Kind]) <= e.labels;
    assert e in GetPostedIssues(log', [Kind]);
    assert e.body == StoredBody(RecordBody(n, text), now);
    IncludesTransitive(e.body, RecordBody(n, text), n.title);
  }

  /** Once a news item is recorded, a later run that is handed an item
      with the same title stops at the dedup check: it neither tweets nor
      records. */
  lemma SameNewsIsNotRepeated(
    log: Log, now: Text, svc: X.Service, gh: GitHub,
    fetched: Option<Text>, parse: Parser, reply: Option<Text>,
    later: Text, svc': X.Service, gh': GitHub,
    fetched': Option<Text>, parse': Parser, reply': Option<Text>)
    requires Step(log, now, svc, gh, fetched, parse, reply).exit == Completed
    requires gh'.listOk && FetchLatestNews(fetched', parse').Some?
    requires FetchLatestNews(fetched', parse').value.title == FetchLatestNews(fetched, parse).value.title
    ensures
      var first := Step(log, now, svc, gh, fetched, parse, reply);
      var again := Step(first.log, later, svc', gh', fetched', parse', reply');
      again.exit == Skipped && again.log == first.log && !Tweets(again.calls)
  {
    var n := FetchLatestNews(fetched, parse).value;
    RecordThenNewsPosted(log, n, reply.value, now);
  }
}

=== FILE: note.dfy ===
/** The note job (scripts/note-post.js with the article generator of
    scripts/lib/note-client.js): pick a theme not yet recorded, have Claude
    write an article as fenced JSON, publish it on note, share it on X when
    the share text fits, and record it under `note`. */
module NotePost {
  import opened Wrappers
  import opened Seqs
  import opened Texts
  import opened Patterns
  import opened Ledger
  import opened Runs
  import X = XClient

  /** The article `generateNoteArticle` returns. */
  datatype Article = Article(title: Text, content: Text)

  /** `JSON.parse` of the fenced payload: `None` when it throws. */
  type Parser = Text -> Option<Article>

  /** Why `generateNoteArticle` throws. */
  datatype ArticleError = ClaudeFailed | NoFence | ParseFailed

  const Kind: Text := Units("note")
  const ExcerptLength: nat := 500
  const Ellipsis: Text := Units("...")

  // `ARTICLE_THEMES`: the ten article themes, in the order the list gives them.
  const Theme0: Text := Units("ウィスキー初心者が知っておくべき5つの基本知識")
  const Theme1: Text := Units("ハイボールを最高に美味しく作る3つの秘訣")
  const Theme2: Text := Units("ドーナツとウィスキーのペアリング入門")
  const Theme3: Text := Units("日本のウィスキー三大レジェンドの物語")
  const Theme4: Text := Units("秋の夜長に楽しみたいウィスキー5選")
  const Theme5: Text := Units("自宅で楽しむウィスキーテイスティング入門")
  const Theme6: Text := Units("ウィスキーの香りを楽しむための器選び")
  const Theme7: Text := Units("スコッチ、バーボン、ジャパニーズの違いとは")
  const Theme8: Text := Units("山崎、余市、白州 - 蒸溜所ごとの個性を知る")
  const Theme9: Text := Units("ウィスキーロックの氷にこだわる理由")

  const ArticleThemes: seq<Text> :=
    [Theme0, Theme1, Theme2, Theme3, Theme4, Theme5, Theme6, Theme7, Theme8, Theme9]

  lemma Theme0IsOneLine() ensures 1 <= |Theme0| && SingleLine(Theme0) {}
  lemma Theme1IsOneLine() ensures 1 <= |Theme1| && SingleLine(Theme1) {}
  lemma Theme2IsOneLine() ensures 1 <= |Theme2| && SingleLine(Theme2) {}
  lemma Theme3IsOneLine() ensures 1 <= |Theme3| && SingleLine(Theme3) {}
  lemma Theme4IsOneLine() ensures 1 <= |Theme4| && SingleLine(Theme4) {}
  lemma Theme5IsOneLine() ensures 1 <= |Theme5| && SingleLine(Theme5) {}
  lemma Theme6IsOneLine() ensures 1 <= |Theme6| && SingleLine(Theme6) {}
  lemma Theme7IsOneLine() ensures 1 <= |Theme7| && SingleLine(Theme7) {}
  lemma Theme8IsOneLine() ensures 1 <= |Theme8| && SingleLine(Theme8) {}
  lemma Theme9IsOneLine() ensures 1 <= |Theme9| && SingleLine(Theme9) {}

  /** Every theme is a non-empty single line, so `(.+)` can capture it. */
  lemma ThemesAreOneLine()
    ensures forall k :: 0 <= k < |ArticleThemes| ==> 1 <= |ArticleThemes[k]| && SingleLine(ArticleThemes[k])
  {
    forall k | 0 <= k < |ArticleThemes|
      ensures 1 <= |ArticleThemes[k]| && SingleLine(ArticleThemes[k])
    {
      if k == 0 { Theme0IsOneLine(); }
      else if k == 1 { Theme1IsOneLine(); }
      else if k == 2 { Theme2IsOneLine(); }
      else if k == 3 { Theme3IsOneLine(); }
      else if k == 4 { Theme4IsOneLine(); }
      else if k == 5 { Theme5IsOneLine(); }
      else if k == 6 { Theme6IsOneLine(); }
      else if k == 7 { Theme7IsOneLine(); }
      else if k == 8 { Theme8IsOneLine(); }
      else { Theme9IsOneLine(); }
    }
  }

  /** What one issue contributes to `postedThemes`: its capture, or
      nothing when the title does not match (the `null` that
      `filter(Boolean)` drops; a capture is never empty). */
  function Captured(e: Issue): (r: seq<Text>)
    ensures |r| <= 1
    ensures forall t :: t in r <==> NoteTheme(e.title) == Some(t)
  {
    match NoteTheme(e.title)
    case Some(t) => [t]
    case None => []
  }

  /** `postedThemes`: the `\[Note\] (.+) -` capture of each issue title on
      the page, in page order, titles that do not match dropped. */
  function PostedThemes(page: seq<Issue>): (r: seq<Text>)
    ensures |r| <= |page|
    ensures forall e :: e in page && NoteTheme(e.title).Some? ==> NoteTheme(e.title).value in r
    ensures forall t :: t in r ==> exists e :: e in page && NoteTheme(e.title) == Some(t)
  {
    ConcatMapShort(page, Captured);
    ConcatMap(page, Captured)
  }

  /** Page order is kept: the themes of two consecutive stretches of the
      page are those of the first followed by those of the second, and a
      single issue contributes exactly its capture. */
  lemma PostedThemesInPageOrder(a: seq<Issue>, b: seq<Issue>, e: Issue)
    ensures PostedThemes(a + b) == PostedThemes(a) + PostedThemes(b)
    ensures PostedThemes([e]) == Captured(e)
  {
    ConcatMapAppend(a, b, Captured);
    ConcatMapSingle(e, Captured);
  }

  /** `unpostedThemes`: the themes not among `posted`, in list order. */
  function Unposted(themes: seq<Text>, posted: seq<Text>): (r: seq<Text>)
    ensures forall t :: t in r <==> t in themes && t !in posted
    ensures Subsequence(r, themes)
  {
    if |themes| == 0 then []
    else
      var rest := Unposted(themes[1..], posted);
      assert forall t :: t in themes <==> t == themes[0] || t in themes[1..];
      if themes[0] in posted then
        assert rest == [] || Subsequence(rest, themes[1..]);
        rest
      else
        assert ([themes[0]] + rest)[1..] == rest;
        [themes[0]] + rest
  }

  /** `selectTheme()` with `Math.random()` returning `draw`: a random
      unposted theme, or a random theme of the whole list when every theme
      has been recorded. */
  function SelectTheme(log: Log, draw: real): (theme: Text)
    requires 0.0 <= draw < 1.0
    ensures theme in ArticleThemes
    ensures
      var unposted := Unposted(ArticleThemes, PostedThemes(GetPostedIssues(log, [Kind])));
      |unposted| > 0 ==> theme in unposted
  {
    var posted := PostedThemes(GetPostedIssues(log, [Kind]));
    var unposted := Unposted(ArticleThemes, posted);
    if |unposted| == 0 then ArticleThemes[Pick(draw, |ArticleThemes|)]
    else unposted[Pick(draw, |unposted|)]
  }

  /** `generateNoteArticle(theme, generateText)` given Claude's answer
      `reply` (`None` when the call throws). */
  function GenerateNoteArticle(reply: Option<Text>, parse: Parser): (r: Result<Article, ArticleError>)
    ensures r == Failure(ClaudeFailed) <==> reply.None?
    ensures r == Failure(NoFence) <==> reply.Some? && forall i, e :: !FenceMatch(reply.value, i, e)
    ensures r.Success? <==>
      reply.Some? && ExtractJson(reply.value).Some? && parse(ExtractJson(reply.value).value).Some?
    ensures r.Success? ==> Some(r.value) == parse(ExtractJson(reply.value).value)
  {
    match reply
    case None => Failure(ClaudeFailed)
    case Some(text) =>
      match ExtractJson(text)
      case None => Failure(NoFence)
      case Some(payload) =>
        match parse(payload)
        case None => Failure(ParseFailed)
        case Some(article) => Success(article)
  }

  const ShareHead: Text := Encode("📝") + Units(" 新着記事を公開しました！\n\n「")
  const ShareMiddle: Text := Units("」\n\n")
  const ShareTail: Text := Units("\n\n#ウィスキー #note #大人の時間")

  /** The tweet sharing the published article. */
  function ShareText(title: Text, url: Text): (r: Text)
    ensures At(r, 0, ShareHead) && At(r, |ShareHead|, title)
    ensures At(r, |ShareHead| + |title|, ShareMiddle + url + ShareTail)
    ensures At(r, |ShareHead| + |title| + |ShareMiddle|, url)
    ensures |r| == |ShareHead| + |title| + |ShareMiddle| + |url| + |ShareTail|
  {
    var head := ShareHead + title;
    var rest := ShareMiddle + url + ShareTail;
    AtFrame(ShareHead, title, rest);
    AtFrame(ShareMiddle, url, ShareTail);
    AtPrepend(head, rest, |ShareMiddle|, url);
    head + rest
  }

  /** The share text adds 42 code units to the title and the URL (the
      memo emoji counts twice), so it is tweeted exactly when the title and
      the URL together take at most 238. */
  lemma ShareTextLength(title: Text, url: Text)
    ensures |ShareText(title, url)| == |title| + |url| + 42
    ensures |ShareText(title, url)| <= X.MaxLength <==> |title| + |url| <= 238
  {
    assert |Encode("📝")| == 2;
  }

  /** `[Note] ${theme} - ${date}`. */
  function RecordTitle(theme: Text, now: Text): (r: Text)
    ensures At(r, 0, NotePrefix) && At(r, |NotePrefix|, theme)
    ensures At(r, |NotePrefix| + |theme|, Separator + DatePart(now))
    ensures |r| == |NotePrefix| + |theme| + |Separator| + |DatePart(now)|
  {
    var r := NotePrefix + theme + Separator + DatePart(now);
    assert r == NotePrefix + theme + (Separator + DatePart(now));
    AtFrame(NotePrefix, theme, Separator + DatePart(now));
    r
  }

  const ThemeHeading: Text := Units("**テーマ**: ")
  const TitleHeading: Text := Units("\n**タイトル**: ")
  const UrlHeading: Text := Units("\n**URL**: ")

  /** The record body: theme, title, URL, then the first 500 code units
      of the content followed by `...`. */
  function RecordBody(theme: Text, a: Article, url: Text): (r: Text)
    ensures Includes(r, theme) && Includes(r, url)
    ensures |r| >= |Take(a.content, ExcerptLength) + Ellipsis|
    ensures r[|r| - |Take(a.content, ExcerptLength) + Ellipsis|..] == Take(a.content, ExcerptLength) + Ellipsis
  {
    var end := Take(a.content, ExcerptLength) + Ellipsis;
    var mid := TitleHeading + a.title + UrlHeading;
    var front := ThemeHeading + theme + (mid + url + BlankLine);
    var r := front + end;
    assert At(front, |ThemeHeading|, theme) by {
      assert front[|ThemeHeading|..|ThemeHeading| + |theme|] == theme;
    }
    var at := |ThemeHeading| + |theme| + |mid|;
    assert At(front, at, url) by {
      assert front[at..at + |url|] == url;
    }
    AtExtend(front, end, |ThemeHeading|, theme);
    AtExtend(front, end, at, url);
    assert r[|front|..] == end;
    r
  }

  /** `main()` at the instant `now`: `draw` is `Math.random()`, `reply`
      Claude's answer, `parse` stands for `JSON.parse`, `published` the URL
      `postToNote` resolves to (`None` when it throws). */
  function Step(
    log: Log, now: Text, svc: X.Service, gh: GitHub, draw: real,
    reply: Option<Text>, parse: Parser, published: Option<Text>): (r: Run)
    requires 0.0 <= draw < 1.0
    ensures |r.calls| >= 1 && r.calls[0] == ListIssues(WithPosted([Kind]))
    ensures r.exit != Skipped
    ensures r.exit == Completed <==>
      var a := GenerateNoteArticle(reply, parse);
      && gh.listOk && a.Success? && published.Some?
      && (|ShareText(a.value.title, published.value)| <= X.MaxLength ==>
            X.PostToX(svc, ShareText(a.value.title, published.value)).result.Success?)
      && gh.createOk
    ensures r.exit == Completed ==>
      var a := GenerateNoteArticle(reply, parse).value;
      var theme := SelectTheme(log, draw);
      r.log == RecordPost(log, RecordTitle(theme, now), RecordBody(theme, a, published.value), [Kind], now)
    ensures r.exit != Completed ==> r.log == log
    ensures Tweets(r.calls) ==>
      var a := GenerateNoteArticle(reply, parse);
      && a.Success? && published.Some?
      && |ShareText(a.value.title, published.value)| <= X.MaxLength
    ensures r.exit == Completed && |ShareText(GenerateNoteArticle(reply, parse).value.title, published.value)| > X.MaxLength ==>
      !Tweets(r.calls)
  {
    var list := [ListIssues(WithPosted([Kind]))];
    if !gh.listOk then Run(log, list, Failed)
    else
      var theme := SelectTheme(log, draw);
      var article := GenerateNoteArticle(reply, parse);
      Publish(log, now, svc, gh, theme, article, published)
  }

  /** Everything after `selectTheme()`: the article, its publication on
      note, the share tweet and the record. */
  function Publish(
    log: Log, now: Text, svc: X.Service, gh: GitHub,
    theme: Text, article: Result<Article, ArticleError>, published: Option<Text>): (r: Run)
    ensures |r.calls| >= 2 && r.calls[0] == ListIssues(WithPosted([Kind])) && r.calls[1] == AskClaude
    ensures r.exit != Skipped
    ensures r.exit == Completed <==>
      && article.Success? && published.Some?
      && (|ShareText(article.value.title, published.value)| <= X.MaxLength ==>
            X.PostToX(svc, ShareText(article.value.title, published.value)).result.Success?)
      && gh.createOk
    ensures r.exit == Completed ==>
      r.log == RecordPost(log, RecordTitle(theme, now), RecordBody(theme, article.value, published.value), [Kind], now)
    ensures r.exit != Completed ==> r.log == log
    ensures Tweets(r.calls) ==>
      && article.Success? && published.Some?
      && |ShareText(article.value.title, published.value)| <= X.MaxLength
    ensures r.exit == Completed && |ShareText(article.value.title, published.value)| > X.MaxLength ==>
      !Tweets(r.calls)
  {
    match article
    case Failure(_) => Run(log, [ListIssues(WithPosted([Kind])), AskClaude], Failed)
    case Success(a) => Release(log, now, svc, gh, theme, a, published)
  }

  /** Once the article `a` is written: its publication on note, then the
      share tweet and the record. */
  function Release(
    log: Log, now: Text, svc: X.Service, gh: GitHub,
    theme: Text, a: Article, published: Option<Text>): (r: Run)
    ensures |r.calls| >= 3 && r.calls[0] == ListIssues(WithPosted([Kind])) && r.calls[1] == AskClaude
    ensures r.calls[2] == PublishNote(a.title)
    ensures r.exit != Skipped
    ensures r.exit == Completed <==>
      && published.Some?
      && (|ShareText(a.title, published.value)| <= X.MaxLength ==>
            X.PostToX(svc, ShareText(a.title, published.value)).result.Success?)
      && gh.createOk
    ensures r.exit == Completed ==>
      r.log == RecordPost(log, RecordTitle(theme, now), RecordBody(theme, a, published.value), [Kind], now)
    ensures r.exit != Completed ==> r.log == log
    ensures Tweets(r.calls) ==> published.Some? && |ShareText(a.title, published.value)| <= X.MaxLength
  {
    var shown := [ListIssues(WithPosted([Kind])), AskClaude, PublishNote(a.title)];
    match published
    case None => Run(log, shown, Failed)
    case Some(url) =>
      var r := ShareThenRecord(log, now, svc, gh, theme, a, url, shown);
      TweetsAfter(r.calls, shown);
      assert r.calls[0] == r.calls[..3][0] && r.calls[1] == r.calls[..3][1] && r.calls[2] == r.calls[..3][2];
      r
  }

  /** The share tweet, sent only when it fits, then the record, written
      whether or not the tweet was sent. */
  function ShareThenRecord(
    log: Log, now: Text, svc: X.Service, gh: GitHub,
    theme: Text, a: Article, url: Text, before: seq<Call>): (r: Run)
    ensures |r.calls| >= |before| && r.calls[..|before|] == before
    ensures r.exit != Skipped
    ensures r.exit == Completed <==>
      && (|ShareText(a.title, url)| <= X.MaxLength ==> X.PostToX(svc, ShareText(a.title, url)).result.Success?)
      && gh.createOk
    ensures r.exit == Completed ==>
      r.log == RecordPost(log, RecordTitle(theme, now), RecordBody(theme, a, url), [Kind], now)
    ensures r.exit != Completed ==> r.log == log
    ensures Tweets(r.calls[|before|..]) ==> |ShareText(a.title, url)| <= X.MaxLength
    ensures |ShareText(a.title, url)| > X.MaxLength ==> r.calls[|before|..] == [CreateIssue(RecordTitle(theme, now))]
  {
    var share := ShareText(a.title, url);
    if |share| <= X.MaxLength then
      PostThenRecord(log, now, svc, gh, share, RecordTitle(theme, now), RecordBody(theme, a, url), [Kind], before)
    else
      var r := Record(log, now, gh, theme, a, url, before);
      assert r.calls[|before|..] == [CreateIssue(RecordTitle(theme, now))];
      r
  }

  /** `await recordPost(...)` once the article is out: one issue labelled
      `posted` and `note` whose body keeps the theme and the URL, and whose
      title the next run's theme selection reads the theme back from. */
  function Record(log: Log, now: Text, gh: GitHub, theme: Text, a: Article, url: Text, before: seq<Call>): (r: Run)
    ensures r.exit != Skipped && r.calls == before + [CreateIssue(RecordTitle(theme, now))]
    ensures r.exit == Completed <==> gh.createOk
    ensures r.exit == Completed ==>
      && r.log == RecordPost(log, RecordTitle(theme, now), RecordBody(theme, a, url), [Kind], now)
      && r.log[|log|].labels == {Posted, Kind}
      && Includes(r.log[|log|].body, theme) && Includes(r.log[|log|].body, url)
    ensures r.exit == Completed && theme in ArticleThemes && IsIsoTimestamp(now) ==>
      NoteTheme(r.log[|log|].title) == Some(theme)
    ensures r.exit != Completed ==> r.log == log
  {
    var calls := before + [CreateIssue(RecordTitle(theme, now))];
    if gh.createOk then
      var body := RecordBody(theme, a, url);
      var log' := RecordPost(log, RecordTitle(theme, now), body, [Kind], now);
      assert log'[|log|].labels == {Posted, Kind} by {
        assert forall l :: l in log'[|log|].labels <==> l == Posted || l == Kind;
      }
      IncludesTransitive(log'[|log|].body, body, theme);
      IncludesTransitive(log'[|log|].body, body, url);
      assert theme in ArticleThemes && IsIsoTimestamp(now) ==> NoteTheme(log'[|log|].title) == Some(theme) by {
        if theme in ArticleThemes && IsIsoTimestamp(now) {
          RecordedThemeReadsBack(theme, now);
        }
      }
      Run(log', calls, Completed)
    else Run(log, calls, Failed)
  }

  /** The greedy `\[Note\] (.+) -` reads a theme back out of the title it
      was recorded under, even the theme that itself contains ` - `. */
  lemma RecordedThemeReadsBack(theme: Text, now: Text)
    requires theme in ArticleThemes && IsIsoTimestamp(now)
    ensures NoteTheme(RecordTitle(theme, now)) == Some(theme)
  {
    ThemesAreOneLine();
    IsoDatePart(now);
    NoteThemeOfRecordTitle(theme, DatePart(now));
  }

  /** After a completed run, the next run picks a different theme as long
      as some theme is still unrecorded. */
  lemma NoThemeTwice(
    log: Log, now: Text, svc: X.Service, gh: GitHub, draw: real,
    reply: Option<Text>, parse: Parser, published: Option<Text>, draw': real)
    requires 0.0 <= draw < 1.0 && 0.0 <= draw' < 1.0 && IsIsoTimestamp(now)
    requires Step(log, now, svc, gh, draw, reply, parse, published).exit == Completed
    requires
      var log' := Step(log, now, svc, gh, draw, reply, parse, published).log;
      |Unposted(ArticleThemes, PostedThemes(GetPostedIssues(log', [Kind])))| > 0
    ensures
      var log' := Step(log, now, svc, gh, draw, reply, parse, published).log;
      SelectTheme(log', draw') != SelectTheme(log, draw)
  {
    var theme := SelectTheme(log, draw);
    var log' := Step(log, now, svc, gh, draw, reply, parse, published).log;
    var page := GetPostedIssues(log', [Kind]);
    assert log'[|log|].title == RecordTitle(theme, now);
    assert WithPosted([Kind]) <= log'[|log|].labels;
    assert log'[|log|] in page;
    RecordedThemeReadsBack(theme, now);
    assert theme in PostedThemes(page);
  }

  /** The ninth theme is the distillery names, ` -`, and a subtitle. */
  lemma NinthThemeSplits()
    ensures ArticleThemes[8] == Units("山崎、余市、白州") + SpaceDash + Units(" 蒸溜所ごとの個性を知る")
  {
    UnitsConcat("山崎、余市、白州", " -");
    UnitsConcat("山崎、余市、白州 -", " 蒸溜所ごとの個性を知る");
  }

  /** `[Note] ` is a one-line bracket tag with no `] ` inside it. */
  lemma NotePrefixIsTag()
    ensures NotePrefix == [OpenBracket] + Units("Note") + BracketClose
    ensures SingleLine(Units("Note")) && forall j :: !At(Units("Note"), j, BracketClose)
  {
    var kind := Units("Note");
    assert forall j :: 0 <= j < |kind| ==> kind[j] != BracketClose[0];
    forall j
      ensures !At(kind, j, BracketClose)
    {
      assert j < 0 || j >= |kind| || kind[j] != BracketClose[0];
    }
  }

  /** The distillery names hold neither a line break nor ` -`. */
  lemma NinthNamesArePlain()
    ensures SingleLine(Units("山崎、余市、白州")) && forall j :: !At(Units("山崎、余市、白州"), j, SpaceDash)
  {
    var name := Units("山崎、余市、白州");
    assert forall j :: 0 <= j < |name| ==> name[j] != Space;
    NoSpaceNoDash(name);
  }

  /** For a theme that starts with plain names and ` -`, the lazy title
      pattern yields those names alone. */
  lemma TitleOfSplitTheme(name: Text, after: Text, now: Text)
    requires 1 <= |name| && SingleLine(name) && forall j :: !At(name, j, SpaceDash)
    ensures TitleOf(RecordTitle(name + SpaceDash + after, now)) == name
  {
    var kind := Units("Note");
    NotePrefixIsTag();
    var rest := after + Separator + DatePart(now);
    assert RecordTitle(name + SpaceDash + after, now) == [OpenBracket] + kind + BracketClose + name + SpaceDash + rest;
    BracketTitleOfRecordTitle(kind, name, rest);
  }

  /** The lazy `\[.+?\] (.+?) -` of `getPostedTitles` disagrees with the
      job's own extractor on the ninth theme: it stops at the first ` -`
      and yields only the distillery names. */
  lemma LazyExtractorCutsNinthTheme(now: Text)
    ensures TitleOf(RecordTitle(ArticleThemes[8], now)) == Units("山崎、余市、白州")
    ensures IsIsoTimestamp(now) ==> NoteTheme(RecordTitle(ArticleThemes[8], now)) == Some(ArticleThemes[8])
  {
    NinthThemeSplits();
    NinthNamesArePlain();
    TitleOfSplitTheme(Units("山崎、余市、白州"), Units(" 蒸溜所ごとの個性を知る"), now);
    if IsIsoTimestamp(now) {
      RecordedThemeReadsBack(ArticleThemes[8], now);
    }
  }
}

=== FILE: numerals.dfy ===
/** How a JavaScript template literal renders an integer: `${n}` writes
    its shortest decimal form, with a leading `-` when it is negative. */
module Numerals {
  import opened Wrappers
  import opened Texts

  const Zero: CodeUnit := 0x30

  predicate AllDigits(t: Text)
  {
    forall i :: 0 <= i < |t| ==> IsDigit(t[i])
  }

  /** The decimal digits of `n`, most significant first. */
  function Digits(n: nat): (r: Text)
    ensures 1 <= |r| && AllDigits(r)
    ensures |r| > 1 ==> r[0] != Zero
  {
    if n < 10 then [(Zero as int + n) as CodeUnit]
    else Digits(n / 10) + [(Zero as int + n % 10) as CodeUnit]
  }

  /** The value a string of decimal digits denotes. */
  function DigitsValue(t: Text): (n: nat)
    requires AllDigits(t)
  {
    if |t| == 0 then 0
    else DigitsValue(t[..|t| - 1]) * 10 + (t[|t| - 1] as int - Zero as int)
  }

  lemma {:induction false} DigitsRoundTrip(n: nat)
    ensures DigitsValue(Digits(n)) == n
  {
    if n >= 10 {
      var d := Digits(n);
      assert d[..|d| - 1] == Digits(n / 10);
      DigitsRoundTrip(n / 10);
    }
  }

  /** `${n}` for an integer `n`. */
  function Decimal(n: int): (r: Text)
    ensures 1 <= |r|
    ensures forall i :: 0 <= i < |r| ==> IsDigit(r[i]) || r[i] == Hyphen
    ensures r[0] == Hyphen <==> n < 0
  {
    if n < 0 then [Hyphen] + Digits(-n) else Digits(n)
  }

  /** Reads back what `Decimal` writes: an optional `-` and one or more
      digits. */
  function ParseDecimal(t: Text): (r: Option<int>)
    ensures r.Some? ==> 1 <= |t|
  {
    if 2 <= |t| && t[0] == Hyphen && AllDigits(t[1..]) then Some(-(DigitsValue(t[1..]) as int))
    else if 1 <= |t| && AllDigits(t) then Some(DigitsValue(t))
    else None
  }

  lemma DecimalRoundTrip(n: int)
    ensures ParseDecimal(Decimal(n)) == Some(n)
  {
    if n < 0 {
      assert Decimal(n)[1..] == Digits(-n);
      DigitsRoundTrip(-n);
    } else {
      DigitsRoundTrip(n);
    }
  }

  lemma DecimalInjective(a: int, b: int)
    requires Decimal(a) == Decimal(b)
    ensures a == b
  {
    DecimalRoundTrip(a);
    DecimalRoundTrip(b);
  }
}

=== FILE: pairing.dfy ===
/** The whisky and doughnut pairing job (scripts/pairing-post.js): once per UTC day, ask Claude for a post, tweet it,
    then record it in the ledger under `pairing`. The protocol itself is
    `DayGated.Step`. */
module PairingPost {
  import opened Wrappers
  import opened Texts
  import opened Ledger
  import opened Seasons
  import opened Runs
  import X = XClient
  import DayGated

  const Kind: Text := Units("pairing")
  const TitlePrefix: Text := Units("[Pairing] ")

  const SpringContext: Text := Units("春 - 桜、ストロベリー、フローラル")
  const SummerContext: Text := Units("夏 - レモン、ココナッツ、トロピカル")
  const AutumnContext: Text := Units("秋 - 栗、シナモン、メープル")
  const WinterContext: Text := Units("冬 - チョコレート、ジンジャー、キャラメル")

  /** `getSeasonContext()`: the season line of the prompt. */
  function SeasonContext(month: Month): (r: Text)
    ensures r == [WinterContext, SpringContext, SummerContext, AutumnContext][Quarter(month)]
  {
    Seasonal(month, SpringContext, SummerContext, AutumnContext, WinterContext)
  }

  /** Two months get the same season line exactly when they fall in the
      same season: the four lines differ. */
  lemma SeasonPartition(m1: Month, m2: Month)
    ensures SeasonContext(m1) == SeasonContext(m2) <==> Quarter(m1) == Quarter(m2)
  {
    assert SpringContext[0] != SummerContext[0] && SpringContext[0] != AutumnContext[0];
    assert SpringContext[0] != WinterContext[0] && SummerContext[0] != AutumnContext[0];
    assert SummerContext[0] != WinterContext[0] && AutumnContext[0] != WinterContext[0];
    SeasonalPartition(m1, m2, SpringContext, SummerContext, AutumnContext, WinterContext);
  }

  /** `main()` at the instant `now`, with Claude answering `reply`
      (`None` when the call throws). */
  function Step(log: Log, now: Text, svc: X.Service, gh: GitHub, reply: Option<Text>): (r: Run)
    ensures gh.listOk && IsPostedToday(log, [Kind], now) ==> r.exit == Skipped && r.log == log
    ensures r.exit == Completed <==>
      && gh.listOk && !IsPostedToday(log, [Kind], now) && reply.Some?
      && X.PostToX(svc, reply.value).result.Success? && gh.createOk
    ensures r.exit == Completed ==>
      && r.log == RecordPost(log, TitlePrefix + DatePart(now), reply.value, [Kind], now)
      && r.log[|log|].labels == {Posted, Kind}
  {
    DayGated.Step(Kind, TitlePrefix, log, now, svc, gh, reply)
  }
}

=== FILE: patterns.dfy ===
/** The three regular expressions the bot applies to text, each as a
    search for the match JavaScript's backtracking engine reports: the
    leftmost starting position wins, and at that position a lazy group
    takes the shortest capture that lets the rest match, a greedy group
    the longest. `.` stops at line terminators; `[\s\S]` does not. */
module Patterns {
  import opened Wrappers
  import opened Texts

  /** Where a match starts and which span its first group captured. */
  datatype Hit = Hit(start: nat, capStart: nat, capEnd: nat)

  const FenceOpen: Text := Units("```json\n")
  const FenceClose: Text := Units("\n```")
  const NotePrefix: Text := Units("[Note] ")
  const SpaceDash: Text := Units(" -")
  const BracketClose: Text := Units("] ")
  const OpenBracket: CodeUnit := 0x5B

  /** What every record title puts between its name and its date. */
  const Separator: Text := Units(" - ")

  // ---------------------------------------------------------------------
  // /```json\n([\s\S]+?)\n```/

  /** A fence opens at `i` and a close starts at `e`, leaving at least
      one code unit between them. */
  predicate FenceMatch(t: Text, i: int, e: int)
  {
    At(t, i, FenceOpen) && i + |FenceOpen| < e && At(t, e, FenceClose)
  }

  function FenceFrom(t: Text, i: nat): (r: Option<Hit>)
    decreases |t| - i
    ensures r.Some? ==> i <= r.value.start && r.value.capStart == r.value.start + |FenceOpen|
    ensures r.Some? ==> FenceMatch(t, r.value.start, r.value.capEnd)
    ensures r.Some? ==> forall e :: r.value.capStart < e < r.value.capEnd ==> !At(t, e, FenceClose)
    ensures r.Some? ==> forall j, e :: i <= j < r.value.start ==> !FenceMatch(t, j, e)
    ensures r.None? ==> forall j, e :: i <= j ==> !FenceMatch(t, j, e)
  {
    if i + |FenceOpen| > |t| then None
    else if At(t, i, FenceOpen) then
      match FirstAt(t, FenceClose, i + |FenceOpen| + 1, |t|)
      case Some(e) => Some(Hit(i, i + |FenceOpen|, e))
      case None => FenceFrom(t, i + 1)
    else FenceFrom(t, i + 1)
  }

  /** The payload `p` sits in the leftmost fence, opening at `i`, and ends
      at the first close that follows its first code unit. */
  ghost predicate LeftmostFence(t: Text, i: int, p: Text)
  {
    && At(t, i, FenceOpen)
    && At(t, i + |FenceOpen|, p)
    && At(t, i + |FenceOpen| + |p|, FenceClose)
    && (forall e :: i + |FenceOpen| < e < i + |FenceOpen| + |p| ==> !At(t, e, FenceClose))
    && (forall j, e :: 0 <= j < i ==> !FenceMatch(t, j, e))
  }

  /** `response.match(/```json\n([\s\S]+?)\n```/)?.[1]` */
  function ExtractJson(t: Text): (r: Option<Text>)
    ensures r.Some? <==> exists i, e :: FenceMatch(t, i, e)
    ensures r.Some? ==> |r.value| >= 1 && exists i :: LeftmostFence(t, i, r.value)
  {
    match FenceFrom(t, 0)
    case None => None
    case Some(h) =>
      var p := t[h.capStart..h.capEnd];
      assert LeftmostFence(t, h.start, p);
      Some(p)
  }

  // ---------------------------------------------------------------------
  // /\[Note\] (.+) -/

  predicate NoteThemeMatch(t: Text, i: int, p: int)
  {
    && At(t, i, NotePrefix)
    && i + |NotePrefix| < p <= LineEnd(t, i + |NotePrefix|)
    && At(t, p, SpaceDash)
  }

  function NoteThemeFrom(t: Text, i: nat): (r: Option<Hit>)
    decreases |t| - i
    ensures r.Some? ==> i <= r.value.start && r.value.capStart == r.value.start + |NotePrefix|
    ensures r.Some? ==> NoteThemeMatch(t, r.value.start, r.value.capEnd)
    ensures r.Some? ==> forall p :: r.value.capEnd < p ==> !NoteThemeMatch(t, r.value.start, p)
    ensures r.Some? ==> forall j, p :: i <= j < r.value.start ==> !NoteThemeMatch(t, j, p)
    ensures r.None? ==> forall j, p :: i <= j ==> !NoteThemeMatch(t, j, p)
  {
    if i + |NotePrefix| > |t| then None
    else if At(t, i, NotePrefix) then
      match LastAt(t, SpaceDash, i + |NotePrefix| + 1, LineEnd(t, i + |NotePrefix|))
      case Some(p) => Some(Hit(i, i + |NotePrefix|, p))
      case None => NoteThemeFrom(t, i + 1)
    else NoteThemeFrom(t, i + 1)
  }

  /** The match the greedy search reports: the leftmost `[Note] `, and
      on it the last ` -` the line allows. */
  ghost predicate GreedyNoteTheme(t: Text, i: int, p: int)
  {
    && NoteThemeMatch(t, i, p)
    && (forall j, q :: 0 <= j < i ==> !NoteThemeMatch(t, j, q))
    && (forall q :: p < q ==> !NoteThemeMatch(t, i, q))
  }

  /** At most one match is the greedy one, so `NoteTheme` names a single
      capture. */
  lemma GreedyNoteThemeUnique(t: Text, i: int, p: int, i': int, p': int)
    requires GreedyNoteTheme(t, i, p) && GreedyNoteTheme(t, i', p')
    ensures i == i' && p == p'
  {
  }

  /** `title.match(/\[Note\] (.+) -/)?.[1]` */
  function NoteTheme(t: Text): (r: Option<Text>)
    ensures r.Some? <==> exists i, p :: NoteThemeMatch(t, i, p)
    ensures r.Some? ==> exists i, p :: GreedyNoteTheme(t, i, p) && r.value == t[i + |NotePrefix|..p]
  {
    match NoteThemeFrom(t, 0)
    case None => None
    case Some(h) =>
      assert GreedyNoteTheme(t, h.start, h.capEnd);
      Some(t[h.capStart..h.capEnd])
  }

  // ---------------------------------------------------------------------
  // /\[.+?\] (.+?) -/

  /** `[` at `i` and `] ` just before `s`: the first group is non-empty
      and stays on the line it starts on. */
  predicate TagEnd(t: Text, i: int, s: int)
  {
    && 0 <= i < |t| && t[i] == OpenBracket
    && i + 2 + |BracketClose| <= s <= LineEnd(t, i + 1) + |BracketClose|
    && At(t, s - |BracketClose|, BracketClose)
  }

  /** A match with the capture starting at `s` and ` -` at `p`. */
  predicate TitleMatch(t: Text, i: int, s: int, p: int)
  {
    && TagEnd(t, i, s)
    && s < p <= LineEnd(t, s)
    && At(t, p, SpaceDash)
  }

  /** The shortest second group once the first one ends before `s`. */
  function CaptureEnd(t: Text, i: int, s: int): (r: Option<nat>)
    requires TagEnd(t, i, s)
    ensures r.Some? ==> TitleMatch(t, i, s, r.value)
    ensures r.Some? ==> forall p :: p < r.value ==> !TitleMatch(t, i, s, p)
    ensures r.None? ==> forall p :: !TitleMatch(t, i, s, p)
  {
    FirstAt(t, SpaceDash, s + 1, LineEnd(t, s))
  }

  /** Tries the capture starts `s`, `s + 1`, ... that the first lazy group
      allows, shortest first. */
  function TitleFromClose(t: Text, i: nat, s: nat): (r: Option<Hit>)
    requires i < |t| && t[i] == OpenBracket
    decreases |t| - s
    ensures r.Some? ==> r.value.start == i && s <= r.value.capStart
    ensures r.Some? ==> TitleMatch(t, i, r.value.capStart, r.value.capEnd)
    ensures r.Some? ==> forall p :: p < r.value.capEnd ==> !TitleMatch(t, i, r.value.capStart, p)
  {
    if s > |t| then None
    else if TagEnd(t, i, s) then
      match CaptureEnd(t, i, s)
      case Some(p) => Some(Hit(i, s, p))
      case None => TitleFromClose(t, i, s + 1)
    else TitleFromClose(t, i, s + 1)
  }

  /** No capture start that `TitleFromClose` passes over has a match. */
  lemma {:induction false} TitleFromCloseSkips(t: Text, i: nat, s: nat, s': int, p: int)
    requires i < |t| && t[i] == OpenBracket && s <= s'
    requires TitleFromClose(t, i, s).None? || s' < TitleFromClose(t, i, s).value.capStart
    decreases |t| - s
    ensures !TitleMatch(t, i, s', p)
  {
    if s > |t| {
      assert !TagEnd(t, i, s');
    } else if s' == s {
      assert !TagEnd(t, i, s) || CaptureEnd(t, i, s).None?;
    } else {
      assert !(TagEnd(t, i, s) && CaptureEnd(t, i, s).Some?);
      assert TitleFromClose(t, i, s) == TitleFromClose(t, i, s + 1);
      TitleFromCloseSkips(t, i, s + 1, s', p);
    }
  }

  function TitleFrom(t: Text, i: nat): (r: Option<Hit>)
    decreases |t| - i
    ensures r.Some? ==> i <= r.value.start < r.value.capStart
    ensures r.Some? ==> TitleMatch(t, r.value.start, r.value.capStart, r.value.capEnd)
    ensures r.Some? ==> forall p :: p < r.value.capEnd ==> !TitleMatch(t, r.value.start, r.value.capStart, p)
    ensures r.Some? ==> forall s, p :: s < r.value.capStart ==> !TitleMatch(t, r.value.start, s, p)
    ensures r.Some? ==> forall j, s, p :: i <= j < r.value.start ==> !TitleMatch(t, j, s, p)
    ensures r.None? ==> forall j, s, p :: i <= j ==> !TitleMatch(t, j, s, p)
  {
    if i >= |t| then None
    else if t[i] == OpenBracket then
      var here := TitleFromClose(t, i, 0);
      assert forall s', p :: (here.None? || s' < here.value.capStart) ==> !TitleMatch(t, i, s', p) by {
        forall s', p | here.None? || s' < here.value.capStart
          ensures !TitleMatch(t, i, s', p)
        {
          if 0 <= s' {
            TitleFromCloseSkips(t, i, 0, s', p);
          }
        }
      }
      match here
      case Some(h) => Some(h)
      case None => TitleFrom(t, i + 1)
    else TitleFrom(t, i + 1)
  }

  /** The match the lazy search reports: the leftmost `[`, on it the
      shortest first group, and after that the shortest second group. */
  ghost predicate LazyTitle(t: Text, i: int, s: int, p: int)
  {
    && TitleMatch(t, i, s, p)
    && (forall j, s', p' :: 0 <= j < i ==> !TitleMatch(t, j, s', p'))
    && (forall s', p' :: s' < s ==> !TitleMatch(t, i, s', p'))
    && (forall p' :: p' < p ==> !TitleMatch(t, i, s, p'))
  }

  /** At most one match is the lazy one, so `BracketTitle` names a single
      capture. */
  lemma LazyTitleUnique(t: Text, i: int, s: int, p: int, i': int, s': int, p': int)
    requires LazyTitle(t, i, s, p) && LazyTitle(t, i', s', p')
    ensures i == i' && s == s' && p == p'
  {
  }

  /** `title.match(/\[.+?\] (.+?) -/)?.[1]` */
  function BracketTitle(t: Text): (r: Option<Text>)
    ensures r.Some? <==> exists i, s, p :: TitleMatch(t, i, s, p)
    ensures r.Some? ==> exists i, s, p :: LazyTitle(t, i, s, p) && r.value == t[s..p]
    ensures r.Some? ==> 1 <= |r.value| && SingleLine(r.value) && Includes(t, r.value)
  {
    match TitleFrom(t, 0)
    case None => None
    case Some(h) =>
      var c := t[h.capStart..h.capEnd];
      assert At(t, h.capStart, c);
      assert LazyTitle(t, h.start, h.capStart, h.capEnd);
      Some(c)
  }

  // ---------------------------------------------------------------------
  // The two title extractors on the titles the jobs record

  /** A text without spaces contains no ` -`. */
  lemma NoSpaceNoDash(t: Text)
    requires forall i :: 0 <= i < |t| ==> t[i] != Space
    ensures forall j :: !At(t, j, SpaceDash)
  {
    forall j | 0 <= j && j + 2 <= |t|
      ensures !At(t, j, SpaceDash)
    {
      assert t[j..j + 2][0] == t[j];
    }
  }

  /** The greedy group recovers the whole theme from `[Note] theme - date`,
      even when the theme itself contains ` - `. */
  lemma NoteThemeOfRecordTitle(theme: Text, date: Text)
    requires 1 <= |theme| && SingleLine(theme) && IsIsoDate(date)
    ensures NoteTheme(NotePrefix + theme + Separator + date) == Some(theme)
  {
    var t := NotePrefix + theme + Separator + date;
    var s := |NotePrefix|;
    var pe := s + |theme|;
    assert t[..s] == NotePrefix;
    assert forall i :: s <= i < pe ==> t[i] == theme[i - s];
    assert t[pe..pe + 2] == SpaceDash;
    assert NoteThemeMatch(t, 0, pe);
    forall p | pe < p
      ensures !At(t, p, SpaceDash)
    {
      if p == pe + 1 {
        assert t[p] == Hyphen;
      } else if p == pe + 2 && p + 1 < |t| {
        assert t[p + 1] == date[0];
      } else if pe + 3 <= p < |t| {
        assert t[p] == date[p - pe - 3];
      }
    }
    var h := NoteThemeFrom(t, 0).value;
    assert h.start == 0;
    assert h.capEnd == pe;
    assert t[s..pe] == theme;
  }

  /** The lazy group stops at the first ` -` after the bracketed kind. */
  lemma BracketTitleOfRecordTitle(kind: Text, name: Text, rest: Text)
    requires 1 <= |kind| && SingleLine(kind) && forall j :: !At(kind, j, BracketClose)
    requires 1 <= |name| && SingleLine(name) && forall j :: !At(name, j, SpaceDash)
    ensures BracketTitle([OpenBracket] + kind + BracketClose + name + SpaceDash + rest) == Some(name)
  {
    var t := [OpenBracket] + kind + BracketClose + name + SpaceDash + rest;
    var s0 := 1 + |kind| + |BracketClose|;
    var pe := s0 + |name|;
    RecordTitleMatches(kind, name, rest);
    KindHasNoEarlierClose(kind, name, rest);
    NameHasNoEarlierDash(kind, name, rest);
    var h := TitleFrom(t, 0).value;
    assert h.start == 0;
    assert h.capStart == s0;
    assert h.capEnd == pe;
    assert t[s0..pe] == name;
  }

  lemma RecordTitleMatches(kind: Text, name: Text, rest: Text)
    requires 1 <= |kind| && SingleLine(kind) && 1 <= |name| && SingleLine(name)
    ensures
      var t := [OpenBracket] + kind + BracketClose + name + SpaceDash + rest;
      TitleMatch(t, 0, 1 + |kind| + |BracketClose|, 1 + |kind| + |BracketClose| + |name|)
  {
    var t := [OpenBracket] + kind + BracketClose + name + SpaceDash + rest;
    var s0 := 1 + |kind| + |BracketClose|;
    var pe := s0 + |name|;
    assert forall i :: 1 <= i < 1 + |kind| ==> t[i] == kind[i - 1];
    assert forall i :: s0 <= i < pe ==> t[i] == name[i - s0];
    assert t[s0 - |BracketClose|..s0] == BracketClose;
    assert t[pe..pe + 2] == SpaceDash;
  }

  lemma KindHasNoEarlierClose(kind: Text, name: Text, rest: Text)
    requires forall j :: !At(kind, j, BracketClose)
    ensures
      var t := [OpenBracket] + kind + BracketClose + name + SpaceDash + rest;
      forall c :: 1 <= c < 1 + |kind| ==> !At(t, c, BracketClose)
  {
    var t := [OpenBracket] + kind + BracketClose + name + SpaceDash + rest;
    forall c | 1 <= c < 1 + |kind|
      ensures !At(t, c, BracketClose)
    {
      if c < |kind| {
        assert !At(kind, c - 1, BracketClose);
        assert t[c..c + 2] == kind[c - 1..c + 1];
      } else {
        assert t[c..c + 2][1] == t[c + 1] == 0x5D;
      }
    }
  }

  lemma NameHasNoEarlierDash(kind: Text, name: Text, rest: Text)
    requires forall j :: !At(name, j, SpaceDash)
    ensures
      var t := [OpenBracket] + kind + BracketClose + name + SpaceDash + rest;
      var s0 := 1 + |kind| + |BracketClose|;
      forall p :: s0 <= p < s0 + |name| ==> !At(t, p, SpaceDash)
  {
    var t := [OpenBracket] + kind + BracketClose + name + SpaceDash + rest;
    var s0 := 1 + |kind| + |BracketClose|;
    var pe := s0 + |name|;
    assert t[pe] == Space;
    assert SpaceDash[1] != Space;
    forall p | s0 <= p < pe
      ensures !At(t, p, SpaceDash)
    {
      if p + 1 < pe {
        assert !At(name, p - s0, SpaceDash);
        assert t[p..p + 2] == name[p - s0..p - s0 + 2];
      } else {
        assert t[p..p + 2][1] == t[pe];
      }
    }
  }
}

=== FILE: runs.dfy ===
/** What the scheduled jobs share: the calls a run makes, how it ends, and
    the post-then-record tail every posting job ends with. */
module Runs {
  import opened Wrappers
  import opened Texts
  import opened Ledger
  import X = XClient

  /** Exit status: `Completed` and `Skipped` both exit 0 (`Skipped` is an
      early `process.exit(0)`); `Failed` is the `catch` that exits 1. */
  datatype Exit = Completed | Skipped | Failed

  /** An external call a run makes, in the order it makes them. */
  datatype Call =
    | ListIssues(labels: set<Text>)
    | AskClaude
    | LoadLegends
    | OnX(call: X.Call)
    | PublishNote(title: Text)
    | CreateIssue(title: Text)

  datatype Run = Run(log: Log, calls: seq<Call>, exit: Exit)

  /** Whether GitHub's list and create endpoints answer during this run;
      `false` means the call throws. */
  datatype GitHub = GitHub(listOk: bool, createOk: bool)

  function OnXAll(calls: seq<X.Call>): (r: seq<Call>)
    ensures |r| == |calls|
    ensures forall i :: 0 <= i < |r| ==> r[i] == OnX(calls[i])
  {
    seq(|calls|, i requires 0 <= i < |calls| => OnX(calls[i]))
  }

  /** The run sent a tweet to X. */
  predicate Tweets(calls: seq<Call>)
  {
    exists i :: 0 <= i < |calls| && calls[i].OnX? && calls[i].call.SendTweet?
  }

  lemma TweetsAppend(a: seq<Call>, b: seq<Call>)
    ensures Tweets(a + b) <==> Tweets(a) || Tweets(b)
  {
    if Tweets(a) {
      var i :| 0 <= i < |a| && a[i].OnX? && a[i].call.SendTweet?;
      assert (a + b)[i] == a[i];
    }
    if Tweets(b) {
      var i :| 0 <= i < |b| && b[i].OnX? && b[i].call.SendTweet?;
      assert (a + b)[|a| + i] == b[i];
    }
    if Tweets(a + b) {
      var i :| 0 <= i < |a + b| && (a + b)[i].OnX? && (a + b)[i].call.SendTweet?;
      if i < |a| {
        assert a[i] == (a + b)[i];
      } else {
        assert b[i - |a|] == (a + b)[i];
      }
    }
  }

  /** A run that extends `before` without a tweet in it tweets only in
      what comes after. */
  lemma TweetsAfter(calls: seq<Call>, before: seq<Call>)
    requires |calls| >= |before| && calls[..|before|] == before
    requires forall i :: 0 <= i < |before| ==> !before[i].OnX?
    ensures Tweets(calls) ==> Tweets(calls[|before|..])
  {
    assert calls == before + calls[|before|..];
    TweetsAppend(before, calls[|before|..]);
  }

  /** `Math.floor(Math.random() * n)` for a draw `0 <= r < 1`. */
  function Pick(r: real, n: nat): (i: nat)
    requires 0.0 <= r < 1.0 && n > 0
    ensures i < n
  {
    assert r * (n as real) < n as real by {
      assert (1.0 - r) * (n as real) > 0.0;
    }
    (r * (n as real)).Floor
  }

  /** `await postToX(text)` followed, only once it resolves, by
      `await recordPost(title, body, labels)`; a throw from either ends the
      run with exit 1. */
  function PostThenRecord(
    log: Log, now: Text, svc: X.Service, gh: GitHub, text: Text,
    title: Text, body: Text, labels: seq<Text>, before: seq<Call>): (r: Run)
    ensures |r.calls| >= |before| && r.calls[..|before|] == before
    ensures r.exit != Skipped
    ensures r.exit == Completed <==> X.PostToX(svc, text).result.Success? && gh.createOk
    ensures r.exit == Completed ==> r.log == RecordPost(log, title, body, labels, now)
    ensures r.exit != Completed ==> r.log == log
    ensures Tweets(r.calls[|before|..]) <==> 1 <= |text| <= X.MaxLength && svc.exchange(svc.envRefreshToken).Some?
    ensures CreateIssue(title) in r.calls[|before|..] ==> X.PostToX(svc, text).result.Success?
  {
    var posting := X.PostToX(svc, text);
    var sent := before + OnXAll(posting.calls);
    assert sent[..|before|] == before;
    assert sent[|before|..] == OnXAll(posting.calls);
    assert |posting.calls| == 2 ==> OnXAll(posting.calls)[1] == OnX(posting.calls[1]);
    if posting.result.Failure? then Run(log, sent, Failed)
    else
      var calls := sent + [CreateIssue(title)];
      assert calls[..|before|] == before;
      assert calls[|before|..] == OnXAll(posting.calls) + [CreateIssue(title)];
      assert calls[|before|..][1] == OnX(posting.calls[1]);
      if gh.createOk then Run(RecordPost(log, title, body, labels, now), calls, Completed)
      else Run(log, calls, Failed)
  }
}

=== FILE: seasons.dfy ===
/** Calendar months and the seasons the daily and pairing prompts use. */
module Seasons {

  /** `new Date().getMonth() + 1` */
  type Month = m: int | 1 <= m <= 12 witness 1

  /** The season of a month as a number: December to February are 0,
      March to May 1, June to August 2, September to November 3. */
  function Quarter(m: Month): (q: nat)
    ensures q < 4
    ensures q == 0 <==> m == 12 || m <= 2
  {
    (m % 12) / 3
  }

  /** The `if` chain of `getSeasonContext()`: March to May is spring,
      June to August summer, September to November autumn, the rest
      winter. */
  function Seasonal<T>(month: Month, spring: T, summer: T, autumn: T, winter: T): (r: T)
    ensures r == [winter, spring, summer, autumn][Quarter(month)]
  {
    if 3 <= month <= 5 then spring
    else if 6 <= month <= 8 then summer
    else if 9 <= month <= 11 then autumn
    else winter
  }

  /** With four distinct lines, two months get the same line exactly when
      they fall in the same season. */
  lemma SeasonalPartition<T>(m1: Month, m2: Month, spring: T, summer: T, autumn: T, winter: T)
    requires spring != summer && spring != autumn && spring != winter
    requires summer != autumn && summer != winter && autumn != winter
    ensures Seasonal(m1, spring, summer, autumn, winter) == Seasonal(m2, spring, summer, autumn, winter)
        <==> Quarter(m1) == Quarter(m2)
  {
  }
}

=== FILE: seqs.dfy ===
/** Sequence helpers the jobs' `map` and `filter` chains reduce to. */
module Seqs {
  /** `s.flatMap(f)`: the results of `f` on each element, concatenated
      in order. */
  function ConcatMap<A(!new), B(!new)>(s: seq<A>, f: A -> seq<B>): (r: seq<B>)
    ensures forall y :: y in r <==> exists x :: x in s && y in f(x)
  {
    if |s| == 0 then []
    else
      var rest := ConcatMap(s[1..], f);
      assert forall x :: x in s <==> x == s[0] || x in s[1..];
      f(s[0]) + rest
  }

  /** Order is kept: mapping two consecutive stretches gives the first's
      results followed by the second's. */
  lemma {:induction false} ConcatMapAppend<A(!new), B(!new)>(a: seq<A>, b: seq<A>, f: A -> seq<B>)
    ensures ConcatMap(a + b, f) == ConcatMap(a, f) + ConcatMap(b, f)
  {
    if |a| == 0 {
      assert a + b == b;
    } else {
      assert (a + b)[0] == a[0];
      assert (a + b)[1..] == a[1..] + b;
      ConcatMapAppend(a[1..], b, f);
      var c, x, y := f(a[0]), ConcatMap(a[1..], f), ConcatMap(b, f);
      assert c + (x + y) == (c + x) + y;
    }
  }

  /** When each element yields at most one result, there are at most as
      many results as elements. */
  lemma {:induction false} ConcatMapShort<A(!new), B(!new)>(s: seq<A>, f: A -> seq<B>)
    requires forall x :: |f(x)| <= 1
    ensures |ConcatMap(s, f)| <= |s|
  {
    if |s| > 0 {
      ConcatMapShort(s[1..], f);
    }
  }

  lemma ConcatMapSingle<A(!new), B(!new)>(x: A, f: A -> seq<B>)
    ensures ConcatMap([x], f) == f(x)
  {
    assert [x][1..] == [];
  }

  /** `a` is `b` with some elements left out, order kept. */
  ghost predicate Subsequence<T>(a: seq<T>, b: seq<T>)
    decreases |b|
  {
    if |a| == 0 then true
    else if |b| == 0 then false
    else (a[0] == b[0] && Subsequence(a[1..], b[1..])) || Subsequence(a, b[1..])
  }
}

=== FILE: texts.dfy ===
/** JavaScript strings as sequences of UTF-16 code units.

    `length`, `substring`, `includes`, `split` and non-Unicode regular
    expressions all count and compare code units, so every text the bot
    handles is modelled as a `Text`, and source literals are converted to
    code units by the UTF-16 encoder below. */
module Texts {
  import opened Wrappers

  newtype CodeUnit = x: int | 0 <= x < 0x1_0000

  type Text = seq<CodeUnit>

  predicate IsHighSurrogate(u: CodeUnit) { 0xD800 <= u < 0xDC00 }

  predicate IsLowSurrogate(u: CodeUnit) { 0xDC00 <= u < 0xE000 }

  /** Characters outside the Basic Multilingual Plane take two code units. */
  predicate IsAstral(c: char) { c as int >= 0x1_0000 }

  // ---------------------------------------------------------------------
  // UTF-16 encoding

  function EncodeChar(c: char): (u: Text)
    ensures |u| == if IsAstral(c) then 2 else 1
    ensures IsAstral(c) ==> IsHighSurrogate(u[0]) && IsLowSurrogate(u[1])
  {
    if !IsAstral(c) then [c as int as CodeUnit]
    else
      var v := c as int - 0x1_0000;
      [(0xD800 + v / 0x400) as CodeUnit, (0xDC00 + v % 0x400) as CodeUnit]
  }

  /** The UTF-16 form of a string of Unicode scalar values. */
  function Encode(s: string): Text
  {
    if |s| == 0 then [] else EncodeChar(s[0]) + Encode(s[1..])
  }

  function AstralCount(s: string): nat
  {
    if |s| == 0 then 0 else (if IsAstral(s[0]) then 1 else 0) + AstralCount(s[1..])
  }

  /** `length` counts code units: one per character, plus one more for
      every character outside the Basic Multilingual Plane. */
  lemma {:induction false} EncodeLength(s: string)
    ensures |Encode(s)| == |s| + AstralCount(s)
  {
    if |s| > 0 {
      EncodeLength(s[1..]);
    }
  }

  predicate InBmp(s: string)
  {
    forall i :: 0 <= i < |s| ==> !IsAstral(s[i])
  }

  /** Code units of a literal that lies in the Basic Multilingual Plane,
      read off character by character. */
  function Units(s: string): (t: Text)
    requires InBmp(s)
    ensures |t| == |s|
    ensures forall i :: 0 <= i < |s| ==> t[i] as int == s[i] as int
  {
    seq(|s|, i requires 0 <= i < |s| => s[i] as int as CodeUnit)
  }

  lemma UnitsConcat(a: string, b: string)
    requires InBmp(a) && InBmp(b)
    ensures InBmp(a + b) && Units(a + b) == Units(a) + Units(b)
  {
    assert forall i :: 0 <= i < |a + b| ==> (a + b)[i] == if i < |a| then a[i] else b[i - |a|];
  }

  // ---------------------------------------------------------------------
  // Searching

  /** `p` occurs in `t` starting at position `i`. */
  predicate At(t: Text, i: int, p: Text)
  {
    0 <= i && i + |p| <= |t| && t[i..i + |p|] == p
  }

  /** An occurrence survives appending. */
  lemma AtExtend(t: Text, u: Text, i: int, p: Text)
    requires At(t, i, p)
    ensures At(t + u, i, p)
  {
    assert (t + u)[i..i + |p|] == t[i..i + |p|];
  }

  /** An occurrence survives prepending, shifted by what is prepended. */
  lemma AtPrepend(a: Text, t: Text, i: int, p: Text)
    requires At(t, i, p)
    ensures At(a + t, |a| + i, p)
  {
    assert (a + t)[|a| + i..|a| + i + |p|] == t[i..i + |p|];
  }

  /** Where the three parts of `a + m + b` sit. */
  lemma AtFrame(a: Text, m: Text, b: Text)
    ensures At(a + m + b, 0, a) && At(a + m + b, |a|, m) && At(a + m + b, |a| + |m|, b)
  {
    var r := a + m + b;
    assert r[0..|a|] == a;
    assert r[|a|..|a| + |m|] == m;
    assert r[|a| + |m|..|r|] == b;
  }

  /** The smallest position in `lo..hi` at which `p` occurs. */
  function FirstAt(t: Text, p: Text, lo: nat, hi: int): (r: Option<nat>)
    decreases hi - lo
    ensures r.Some? ==> lo <= r.value <= hi && At(t, r.value, p)
    ensures r.Some? ==> forall j :: lo <= j < r.value ==> !At(t, j, p)
    ensures r.None? ==> forall j :: lo <= j <= hi ==> !At(t, j, p)
  {
    if hi < lo then None
    else if At(t, lo, p) then Some(lo)
    else FirstAt(t, p, lo + 1, hi)
  }

  /** The largest position in `lo..hi` at which `p` occurs. */
  function LastAt(t: Text, p: Text, lo: nat, hi: int): (r: Option<nat>)
    decreases hi - lo
    ensures r.Some? ==> lo <= r.value <= hi && At(t, r.value, p)
    ensures r.Some? ==> forall j :: r.value < j <= hi ==> !At(t, j, p)
    ensures r.None? ==> forall j :: lo <= j <= hi ==> !At(t, j, p)
  {
    if hi < lo then None
    else if At(t, hi, p) then Some(hi)
    else LastAt(t, p, lo, hi - 1)
  }

  /** `String.prototype.includes`. */
  function Includes(t: Text, p: Text): (b: bool)
    ensures b <==> exists i :: At(t, i, p)
  {
    FirstAt(t, p, 0, |t|).Some?
  }

  lemma IncludesTransitive(t: Text, m: Text, p: Text)
    requires Includes(t, m) && Includes(m, p)
    ensures Includes(t, p)
  {
    var i :| At(t, i, m);
    var j :| At(m, j, p);
    forall x | i + j <= x < i + j + |p|
      ensures t[x] == p[x - i - j]
    {
      assert t[x] == t[i..i + |m|][x - i];
      assert m[x - i] == m[j..j + |p|][x - i - j];
    }
    assert t[i + j..i + j + |p|] == p;
    assert At(t, i + j, p);
  }

  /** `substring(0, n)` for a non-negative `n`. */
  function Take(t: Text, n: nat): (r: Text)
    ensures |r| == if n < |t| then n else |t|
    ensures r == t[..|r|]
  {
    if n < |t| then t[..n] else t
  }

  // ---------------------------------------------------------------------
  // Lines, as seen by `.` in a regular expression without the `s` flag

  predicate IsLineTerminator(u: CodeUnit)
  {
    u == 0x0A || u == 0x0D || u == 0x2028 || u == 0x2029
  }

  predicate SingleLine(t: Text)
  {
    forall i :: 0 <= i < |t| ==> !IsLineTerminator(t[i])
  }

  /** The first line terminator at or after `s`, or the end of the text. */
  function LineEnd(t: Text, s: nat): (e: nat)
    requires s <= |t|
    decreases |t| - s
    ensures s <= e <= |t|
    ensures forall i :: s <= i < e ==> !IsLineTerminator(t[i])
    ensures e < |t| ==> IsLineTerminator(t[e])
  {
    if s == |t| || IsLineTerminator(t[s]) then s else LineEnd(t, s + 1)
  }

  /** `"\n\n"`: the blank line that separates the parts of a record body. */
  const BlankLine: Text := Units("\n\n")

  // ---------------------------------------------------------------------
  // ISO-8601 timestamps as produced by `Date.prototype.toISOString`

  const LetterT: CodeUnit := 0x54
  const Hyphen: CodeUnit := 0x2D
  const Space: CodeUnit := 0x20

  /** `split('T')[0]`: everything before the first `T`. */
  function DatePart(ts: Text): (d: Text)
    ensures |d| <= |ts| && d == ts[..|d|]
    ensures forall i :: 0 <= i < |d| ==> d[i] != LetterT
    ensures |d| < |ts| ==> ts[|d|] == LetterT
  {
    if |ts| == 0 || ts[0] == LetterT then [] else [ts[0]] + DatePart(ts[1..])
  }

  predicate IsDigit(u: CodeUnit) { 0x30 <= u <= 0x39 }

  /** `YYYY-MM-DD` */
  predicate IsIsoDate(d: Text)
  {
    && |d| == 10
    && (forall i :: 0 <= i < 10 && i != 4 && i != 7 ==> IsDigit(d[i]))
    && d[4] == Hyphen && d[7] == Hyphen
  }

  /** `YYYY-MM-DDTHH:mm:ss.sssZ` */
  predicate IsIsoTimestamp(ts: Text)
  {
    && |ts| == 24
    && IsIsoDate(ts[..10])
    && ts[10] == LetterT
    && (forall i :: i in {11, 12, 14, 15, 17, 18, 20, 21, 22} ==> IsDigit(ts[i]))
    && ts[13] == 0x3A && ts[16] == 0x3A && ts[19] == 0x2E && ts[23] == 0x5A
  }

  /** The date part of a timestamp is its calendar date. */
  lemma IsoDatePart(ts: Text)
    requires IsIsoTimestamp(ts)
    ensures DatePart(ts) == ts[..10]
    ensures IsIsoDate(DatePart(ts))
  {
  }
}

=== FILE: wrappers.dfy ===
/** Failure-carrying values used throughout the model: a JavaScript `null`
    or a missing regex match becomes `None`, a thrown error becomes `Failure`. */
module Wrappers {

  datatype Option<+T> = None | Some(value: T)

  datatype Result<+T, +E> = Success(value: T) | Failure(error: E)
}

=== FILE: xclient.dfy ===
/** Posting to X with OAuth 2.0 (scripts/lib/x-client.js).

    The provider is a parameter: how it answers a refresh exchange for the
    token presented, and how it answers a tweet. The model records which
    calls the client makes, in order. */
module XClient {
  import opened Wrappers
  import opened Texts

  /** The longest text `postToX` accepts, in UTF-16 code units. */
  const MaxLength: nat := 280

  /** What `refreshOAuth2Token` hands back. */
  datatype Tokens = Tokens(accessToken: Text, refreshToken: Option<Text>)

  /** `tweet.data` */
  datatype TweetData = TweetData(id: Text, text: Text)

  /** The X API as one process sees it. `envRefreshToken` is
      `X_OAUTH2_REFRESH_TOKEN` (absent when unset); `exchange` answers a
      refresh exchange for the presented token, `None` when the provider
      rejects it; `tweet` answers a tweet sent with an access token. */
  datatype Service = Service(
    envRefreshToken: Option<Text>,
    exchange: Option<Text> -> Option<Tokens>,
    tweet: (Text, Text) -> Option<TweetData>)

  datatype Call = Exchange(presented: Option<Text>) | SendTweet(accessToken: Text, text: Text)

  datatype XError = EmptyText | TooLong(length: nat) | ExchangeFailed | TweetFailed

  /** The outcome of one `postToX` and the calls it made. */
  datatype Posting = Posting(result: Result<TweetData, XError>, calls: seq<Call>)

  function Exchanges(calls: seq<Call>): (n: nat)
    ensures n <= |calls|
  {
    if |calls| == 0 then 0 else (if calls[0].Exchange? then 1 else 0) + Exchanges(calls[1..])
  }

  /** `refreshAccessToken()`: exchanges the token the environment holds,
      every time, and hands the rotated token back without storing it. */
  function RefreshAccessToken(svc: Service): (r: Result<Tokens, XError>)
    ensures r.Success? <==> svc.exchange(svc.envRefreshToken).Some?
    ensures r.Success? ==> Some(r.value) == svc.exchange(svc.envRefreshToken)
    ensures r.Failure? ==> r.error == ExchangeFailed
  {
    match svc.exchange(svc.envRefreshToken)
    case Some(tokens) => Success(tokens)
    case None => Failure(ExchangeFailed)
  }

  /** `postToX(text)` */
  function PostToX(svc: Service, text: Text): (r: Posting)
    ensures |text| == 0 ==> r == Posting(Failure(EmptyText), [])
    ensures |text| > MaxLength ==> r == Posting(Failure(TooLong(|text|)), [])
    ensures 1 <= |text| <= MaxLength ==> 1 <= |r.calls| && r.calls[0] == Exchange(svc.envRefreshToken)
    ensures Exchanges(r.calls) == if 1 <= |text| <= MaxLength then 1 else 0
    ensures svc.exchange(svc.envRefreshToken).None? ==> |r.calls| <= 1
    ensures 1 <= |text| <= MaxLength && svc.exchange(svc.envRefreshToken).Some? ==>
      r.calls == [Exchange(svc.envRefreshToken), SendTweet(svc.exchange(svc.envRefreshToken).value.accessToken, text)]
    ensures r.result.Success? <==>
      && 1 <= |text| <= MaxLength
      && svc.exchange(svc.envRefreshToken).Some?
      && svc.tweet(svc.exchange(svc.envRefreshToken).value.accessToken, text).Some?
    ensures r.result.Success? ==>
      var access := svc.exchange(svc.envRefreshToken).value.accessToken;
      && r.calls == [Exchange(svc.envRefreshToken), SendTweet(access, text)]
      && svc.tweet(access, text) == Some(r.result.value)
  {
    if |text| == 0 then Posting(Failure(EmptyText), [])
    else if |text| > MaxLength then Posting(Failure(TooLong(|text|)), [])
    else
      var exchange := Exchange(svc.envRefreshToken);
      match RefreshAccessToken(svc)
      case Failure(e) => Posting(Failure(e), [exchange])
      case Success(tokens) =>
        var calls := [exchange, SendTweet(tokens.accessToken, text)];
        assert Exchanges(calls) == 1 + Exchanges([SendTweet(tokens.accessToken, text)]);
        match svc.tweet(tokens.accessToken, text)
        case Some(data) => Posting(Success(data), calls)
        case None => Posting(Failure(TweetFailed), calls)
  }

  /** A text of `n` characters is `n` code units long only when all of them
      lie in the Basic Multilingual Plane, so 280 characters including an
      emoji are refused. */
  lemma {:induction false} AstralCharactersCountTwice(s: string)
    requires |s| == MaxLength && AstralCount(s) > 0
    ensures PostToX(Service(None, _ => None, (_, _) => None), Encode(s)).result == Failure(TooLong(|s| + AstralCount(s)))
  {
    EncodeLength(s);
  }

  /** A provider that honours only its live refresh token and rotates it on
      every exchange. */
  function Rotating(live: Text, access: Text, next: Text): Option<Text> -> Option<Tokens>
  {
    presented => if presented == Some(live) then Some(Tokens(access, Some(next))) else None
  }

  /** The rotated token is never written back: a run that succeeds against a
      rotating provider leaves the environment holding the spent token, so
      the next run's exchange is refused and it tweets nothing. */
  lemma RotatedTokenIsDiscarded(
    spent: Text, rotated: Text, a1: Text, a2: Text, after: Text,
    tweet: (Text, Text) -> Option<TweetData>, text: Text)
    requires spent != rotated
    requires 1 <= |text| <= MaxLength && tweet(a1, text).Some?
    ensures PostToX(Service(Some(spent), Rotating(spent, a1, rotated), tweet), text).result.Success?
    ensures PostToX(Service(Some(spent), Rotating(rotated, a2, after), tweet), text)
         == Posting(Failure(ExchangeFailed), [Exchange(Some(spent))])
  {
  }
}
